=== FILE: README.md ===
# Archive engine of the image-delivery step, in Dafny

This project models the archive engine `ArchiveUtils` of the Goobi
image-export plugin, and the `execute` step of `ImageDeliveryPlugin` that
uses it. It proves properties of that model.

`ArchiveUtils` covers:

- writing zip and tar archives from a file tree (`zipFiles`/`zipFile`,
  `tarFiles`/`tarFile`), while feeding every regular file's bytes to an MD5
  digest;
- validating an archive against the original files (`validateZip`,
  `validateTar`);
- extracting an archive (`unzipFile`, `untarFile`);
- the checksum helpers (`createMD5Checksum`, `createChecksum`,
  `getMD5Checksum`, `convertChecksumToHex`) and `getRelativePath`.

`ImageDeliveryPlugin.execute` does the following in order:

1. lists the image folder;
2. zips it under `<hash>_<title>.zip`;
3. validates the archive against the folder;
4. records the download address in the process property `DOWNLOADURL`,
   updating the first such property or appending one;
5. saves the process.

How the model is built:

- **Files.** A file is a `FileTree.Node`: a regular file with its bytes, a
  directory with its children in listing order, a regular file that cannot be
  opened, one whose reading fails after some bytes, or a path that does not
  exist. A null `File` is `None`. The first kind throws a
  FileNotFoundException before its entry is put, the second an IOException
  after it (`FileTree.Fault`).
- **Writers.** The writers are pure functions. They produce the entries
  written, the bytes fed to the digest, and the exception that cut the walk
  short, if any.
- **Archives.** An archive, as a reader sees it, is a sequence of stored
  entries. Each stored entry is intact or unreadable. The stream either ends
  cleanly or breaks after the last entry. A tar reader reports an entry whose
  name ends in "/" as a directory whatever it was written as
  (`Archive.TarRead`). The zip and tar byte layouts and the gzip envelope are
  not modelled.
- **MD5.** MD5 is a function-valued parameter `md5: seq<byte> -> seq<byte>`.
  The model relies only on it being a function of the bytes fed.
- **Validators and extractors.** These are methods with loops, specified
  against declarative verdicts and outcomes. The extractors keep track of what
  the earlier entries made in the destination, so an entry that lands below a
  regular file, or on a directory, fails as it would on disk.
- **The plugin.** It calls an `ArchiveUtils` from another package, which is
  not part of this model. Its zip, validate and save calls are therefore
  outcomes held in an `Environment`. `Pipeline` then connects the step to the
  archive model.

Modules, in dependency order:

| module | file | contents |
|---|---|---|
| `Base` | base.dfy | bytes, `Option`, `Result`, the escaping exceptions |
| `Hex` | hex.dfy | hex rendering and its parser |
| `Checksum` | checksum.dfy | the chunked digest loops |
| `FileTree` | tree.dfy | nodes, entries, traversal traces |
| `ZipWriter` | zipwriter.dfy | zip writing |
| `TarWriter` | tarwriter.dfy | tar writing |
| `Archive` | archive.dfy | the reader's view of an archive |
| `Validator` | validator.dfy | `validateZip`, `validateTar` |
| `Extractor` | extractor.dfy | `unzipFile`, `untarFile` |
| `RoundTrip` | roundtrip.dfy | write, then read back |
| `RelativePath` | relpath.dfy | `getRelativePath` |
| `Delivery` | plugin.dfy | `execute` |
| `Pipeline` | pipeline.dfy | the step wired to the archive model |

## Model

| member | source | states |
|---|---|---|
| Hex.ByteToHex | plugin/src/de/intranda/goobi/plugins/utils/copy/ArchiveUtils.java:483 | `Integer.toString((b & 0xff) + 0x100, 16).substring(1)` is the zero-padded pair of lowercase digits for the high and low nibble of `b` |
| Hex.HexDigits | plugin/src/de/intranda/goobi/plugins/utils/copy/ArchiveUtils.java:479-486 | characters 2i and 2i+1 of the rendering are the high and low nibble of byte i |
| Hex.HexAlphabet | plugin/src/de/intranda/goobi/plugins/utils/copy/ArchiveUtils.java:479-486 | every character of a rendering is a lowercase hex digit |
| Hex.ParseHexOfHex | plugin/src/de/intranda/goobi/plugins/utils/copy/ArchiveUtils.java:479-486 | a rendering parses back to the bytes it renders |
| Hex.HexOfParseHex | plugin/src/de/intranda/goobi/plugins/utils/copy/ArchiveUtils.java:479-486 | any text that parses is the rendering of what it parses to (the rendering is the only accepted spelling) |
| Hex.HexInjective | plugin/src/de/intranda/goobi/plugins/utils/copy/ArchiveUtils.java:479-486 | different digests never share a hex rendering |
| Hex.ConvertChecksumToHex | plugin/src/de/intranda/goobi/plugins/utils/copy/ArchiveUtils.java:479-486 | the loop's result has two characters per byte, is lowercase hex, and decodes to the input |
| Checksum.CreateChecksum | plugin/src/de/intranda/goobi/plugins/utils/copy/ArchiveUtils.java:682-696 | a digest exactly when the file opens and every read succeeds up to the end of the file; it is then the digest of exactly the file's content, however the reads split it (empty reads included); a file that cannot be opened throws a FileNotFoundException (`new FileInputStream`, line 683) and a failing read an IOException, and either escapes |
| Checksum.Read | plugin/src/de/intranda/goobi/plugins/utils/copy/ArchiveUtils.java:690 | call number k of `read(buffer)` delivers the size of chunk k while chunks remain; after the last one it answers -1 when the file ends cleanly and throws an IOException when reading breaks off |
| Checksum.CreateMD5Checksum | plugin/src/de/intranda/goobi/plugins/utils/copy/ArchiveUtils.java:453-467 | the same loop with the same result: the digest of the file's content, or a FileNotFoundException when the file cannot be opened and an IOException when a read fails |
| Checksum.GetMD5Checksum | plugin/src/de/intranda/goobi/plugins/utils/copy/ArchiveUtils.java:469-477 | for a file read to the end, the hex rendering of its digest, 2 lowercase digits per byte, which decodes back to the digest; otherwise the same FileNotFoundException or IOException escapes |
| Checksum.SameFileSameChecksum | plugin/src/de/intranda/goobi/plugins/utils/copy/ArchiveUtils.java:453-467 | two reads of the same content, split differently, give the same checksum, and it is the digest of that content |
| ZipWriter.ZipFile | plugin/src/de/intranda/goobi/plugins/utils/copy/ArchiveUtils.java:538-581 | `zipFile(file, path)`: a regular file is one entry `path + name` holding its bytes, all fed to the digest; a directory is the entry `path + name + "/"` followed by its children under that prefix; a file that cannot be opened throws a FileNotFoundException before any entry, one whose read breaks off throws an IOException after its entry and the bytes delivered; a path that does not exist writes nothing. Its properties are the ZipFile* lemmas below |
| FileTree.Fault | plugin/src/de/intranda/goobi/plugins/utils/copy/ArchiveUtils.java:545-555 | what the first file that cannot be read to the end throws, depth-first in listing order: a FileNotFoundException from `new FileInputStream` for one that cannot be opened, an IOException from `read` for one that breaks off; none exactly when the tree reads |
| FileTree.FaultAll | plugin/src/de/intranda/goobi/plugins/utils/copy/ArchiveUtils.java:572-577 | the same over a sequence of files: the first one's exception; none exactly when all read |
| ZipWriter.ZipChildren | plugin/src/de/intranda/goobi/plugins/utils/copy/ArchiveUtils.java:572-577 | the loop over `listFiles()`: each child in order, stopping at the first exception |
| ZipWriter.ZipFileConsistent | plugin/src/de/intranda/goobi/plugins/utils/copy/ArchiveUtils.java:538-581 | `zipFile` feeds the digest exactly the file entries' bytes in entry order, directory entries hold nothing, and the exception that escapes is the one the first file that cannot be read to the end throws (`Fault`): a FileNotFoundException when it cannot be opened, an IOException when its read breaks off; there is one exactly when some file cannot be read |
| ZipWriter.ZipChildrenConsistent | plugin/src/de/intranda/goobi/plugins/utils/copy/ArchiveUtils.java:572-577 | the same invariant and the same exception for the loop over a directory's children |
| ZipWriter.ZipFileMeasures | plugin/src/de/intranda/goobi/plugins/utils/copy/ArchiveUtils.java:538-581 | for a readable tree: one entry per regular file and directory; the digest input is all regular-file contents in depth-first order; the file entries number the regular files |
| ZipWriter.ZipChildrenMeasures | plugin/src/de/intranda/goobi/plugins/utils/copy/ArchiveUtils.java:572-577 | the same measures for a sequence of children |
| ZipWriter.ZipFileUnderPath | plugin/src/de/intranda/goobi/plugins/utils/copy/ArchiveUtils.java:545-577 | every entry name starts with the prefix `path` |
| ZipWriter.ZipChildrenUnderPath | plugin/src/de/intranda/goobi/plugins/utils/copy/ArchiveUtils.java:572-577 | the children's entries all start with the directory's prefix |
| ZipWriter.ZipFileDirectoryNames | plugin/src/de/intranda/goobi/plugins/utils/copy/ArchiveUtils.java:566-576 | every directory entry's name ends with the separator, whatever the names |
| ZipWriter.ZipChildrenDirectoryNames | plugin/src/de/intranda/goobi/plugins/utils/copy/ArchiveUtils.java:572-577 | the same for the children's entries |
| ZipWriter.ZipFileDirectorySuffix | plugin/src/de/intranda/goobi/plugins/utils/copy/ArchiveUtils.java:545-577 | with single-component names, an entry is a directory entry if and only if its name ends with the separator |
| ZipWriter.ZipChildrenDirectorySuffix | plugin/src/de/intranda/goobi/plugins/utils/copy/ArchiveUtils.java:572-577 | the same if-and-only-if for the children's entries |
| ZipWriter.ZipSources | plugin/src/de/intranda/goobi/plugins/utils/copy/ArchiveUtils.java:525-528 | the loop of `zipFiles` over the source array, each element at path "", a null element skipped as `zipFile`'s check at 540-543 intends |
| ZipWriter.ZipSourcesAsWritten | plugin/src/de/intranda/goobi/plugins/utils/copy/ArchiveUtils.java:525-528 | the same loop as written: the debug line dereferences the element first, so a null element throws a NullPointerException |
| ZipWriter.ZipSourcesSkipNull | plugin/src/de/intranda/goobi/plugins/utils/copy/ArchiveUtils.java:525-528 | skipping null elements is walking the non-null sources at path "" |
| ZipWriter.ZipSourcesAsWrittenWithoutNull | plugin/src/de/intranda/goobi/plugins/utils/copy/ArchiveUtils.java:525-528 | without null elements, the loop as written and the corrected loop agree |
| ZipWriter.ZipSourcesFacts | plugin/src/de/intranda/goobi/plugins/utils/copy/ArchiveUtils.java:525-528 | over the whole source array: the invariant, the exception of the first file that cannot be read to the end, the entry count and the digest input |
| ZipWriter.ZipFiles | plugin/src/de/intranda/goobi/plugins/utils/copy/ArchiveUtils.java:505-581 | no archive if and only if the array is empty. An archive if and only if every file can be opened and read to the end and no two entries share a name (a repeated name makes `putNextEntry` throw); a tidy listing never repeats one. The archive holds one entry per file and directory, in traversal order, and its digest is both that of the stored file bytes and that of all file contents. Otherwise what was written is a prefix of the traversal's entries. A repeated name throws an IOException. With no repeated name, the exception that escapes is that of the first file that cannot be read to the end: a FileNotFoundException when it cannot be opened, an IOException when its read breaks off. The whole traversal up to that file was written |
| ZipWriter.Finish | plugin/src/de/intranda/goobi/plugins/utils/copy/ArchiveUtils.java:525-568 | the walk gives an archive if and only if nothing was thrown and no entry name repeats; the archive holds exactly the walk's entries and the digest of the bytes fed; the exception is the walk's own or, for a repeated name, an IOException; what was written is always a prefix of the walk's entries. A repeated name always aborts with an IOException; without one, an abort carries the walk's own exception and keeps all its entries |
| ZipWriter.FirstRepeat | plugin/src/de/intranda/goobi/plugins/utils/copy/ArchiveUtils.java:550-568 | the first entry whose name an earlier entry already has: all names before it differ, and it is past the end exactly when no name repeats |
| ZipWriter.ZipFileSeparate | plugin/src/de/intranda/goobi/plugins/utils/copy/ArchiveUtils.java:545-577 | the entries of a tidy tree are out of each other's way (distinct names, nothing at or below a regular file's entry) and all lie at or below the tree's own path |
| ZipWriter.ZipChildrenSeparate | plugin/src/de/intranda/goobi/plugins/utils/copy/ArchiveUtils.java:572-577 | the same for a tidy listing of children, each entry lying at or below one of the children |
| ZipWriter.TidyNamesDiffer | plugin/src/de/intranda/goobi/plugins/utils/copy/ArchiveUtils.java:525-528 | a tidy listing never repeats an entry name |
| ZipWriter.ZipFilesAsWritten | plugin/src/de/intranda/goobi/plugins/utils/copy/ArchiveUtils.java:505-536 | as written, a null element anywhere means no archive; with no null element it equals the corrected `zipFiles` |
| ZipWriter.ZipNullFails | plugin/src/de/intranda/goobi/plugins/utils/copy/ArchiveUtils.java:525-527 | the loop as written cannot get past a null element |
| ZipWriter.ZipNullElementAborts | plugin/src/de/intranda/goobi/plugins/utils/copy/ArchiveUtils.java:525-543 | on `{null, a.tif}`: as written, a NullPointerException escapes with nothing archived; corrected, `a.tif` is archived |
| TarWriter.TarFile | plugin/src/de/intranda/goobi/plugins/utils/copy/ArchiveUtils.java:219-265 | `tarFile(file, path)`: a regular file is one entry named exactly `path`; a directory is the entry `path + "/"` and each child at `path + "/" + childName`; the two read failures as in `zipFile` (the entry is put only after the file is opened, at 229-235) |
| TarWriter.TarChildren | plugin/src/de/intranda/goobi/plugins/utils/copy/ArchiveUtils.java:256-261 | the loop over `listFiles()` of a directory written at `path` |
| TarWriter.TarFileIsZipFile | plugin/src/de/intranda/goobi/plugins/utils/copy/ArchiveUtils.java:219-265 | `tarFile(n, prefix + name)` writes exactly what `zipFile(n, prefix)` writes (same names, flags, contents and digest input) |
| TarWriter.TarChildrenIsZipChildren | plugin/src/de/intranda/goobi/plugins/utils/copy/ArchiveUtils.java:256-261 | each child goes under `path + "/" + childName`, as the zip's children go under `path + "/"` |
| TarWriter.TarFileAsZip | plugin/src/de/intranda/goobi/plugins/utils/copy/ArchiveUtils.java:219-265 | for any caller-chosen path, the tar entries are the zip entries of the node renamed to that path |
| TarWriter.TarSources | plugin/src/de/intranda/goobi/plugins/utils/copy/ArchiveUtils.java:193-196 | the loop over the map's keys, each file at its mapped path, a null key skipped as `tarFile`'s check at 221-224 intends; it stops at the first exception |
| TarWriter.TarSourcesAsWritten | plugin/src/de/intranda/goobi/plugins/utils/copy/ArchiveUtils.java:193-196 | the same loop as written: a null key throws a NullPointerException in the debug line |
| TarWriter.TarSourcesAsZip | plugin/src/de/intranda/goobi/plugins/utils/copy/ArchiveUtils.java:193-196 | the loop over the map writes what zipping the renamed roots writes |
| TarWriter.TarRootsMeasures | plugin/src/de/intranda/goobi/plugins/utils/copy/ArchiveUtils.java:193-196 | renaming the roots to their archive paths changes neither readability, the first read failure, entry count nor digest input |
| TarWriter.TarSourcesFacts | plugin/src/de/intranda/goobi/plugins/utils/copy/ArchiveUtils.java:193-200 | over the whole map: the writer invariant; the loop stops with the exception of the first file that cannot be read to the end, exactly when there is one; the entry count and digest input for a readable map |
| TarWriter.TarFiles | plugin/src/de/intranda/goobi/plugins/utils/copy/ArchiveUtils.java:158-217 | no archive if and only if the map is empty. A file that cannot be opened throws before its entry is put; the FileNotFoundException is caught (197) and the digest of the bytes fed so far is returned. A read that breaks off leaves its entry open; the IOException is caught (199), but `tos.close()` in the `finally` block (202-203) then throws, so exactly in that case an IOException escapes and no digest is returned. The entries written, whether archived or aborted, are those of the loop up to where it stopped (see TarFilesAsZip). A returned digest is that of the stored file bytes, and for a readable map that of all contents in traversal order |
| TarWriter.TarFilesAsZip | plugin/src/de/intranda/goobi/plugins/utils/copy/ArchiveUtils.java:158-217 | for a non-empty map, the entries `tarFiles` wrote, archived or aborted, are exactly those of the zip walk of the files renamed to their mapped paths, up to where the loop stopped: names, order and contents |
| TarWriter.TarFilesAsWritten | plugin/src/de/intranda/goobi/plugins/utils/copy/ArchiveUtils.java:158-217 | as written, a NullPointerException escapes exactly when a null key is reached after files that all read; the only other exception that escapes is the IOException of a read that breaks off. Without null keys this equals the corrected `tarFiles` |
| TarWriter.TarNullFails | plugin/src/de/intranda/goobi/plugins/utils/copy/ArchiveUtils.java:193-195 | as written, a null key reached after readable files ends the loop with a NullPointerException |
| TarWriter.TarNullReached | plugin/src/de/intranda/goobi/plugins/utils/copy/ArchiveUtils.java:193-195 | conversely, the loop as written only stops with a NullPointerException at a null key reached after files that all open |
| TarWriter.TarAsWrittenFacts | plugin/src/de/intranda/goobi/plugins/utils/copy/ArchiveUtils.java:193-196 | the loop as written throws a NullPointerException if and only if a null key is reached, and without null keys it walks like the corrected loop |
| TarWriter.TarSourcesAsWrittenWithoutNull | plugin/src/de/intranda/goobi/plugins/utils/copy/ArchiveUtils.java:193-196 | without null keys, the loop as written and the corrected loop agree |
| TarWriter.TarNullKeyAborts | plugin/src/de/intranda/goobi/plugins/utils/copy/ArchiveUtils.java:193-224 | on `{null -> x, a.tif -> a.tif}`: as written, a NullPointerException escapes; corrected, `a.tif` is archived |
| TarWriter.TarReadFailures | plugin/src/de/intranda/goobi/plugins/utils/copy/ArchiveUtils.java:193-203 | a map of one file that cannot be opened gives the digest of nothing; a map of one file whose read breaks off after one byte aborts with an IOException, the entry half written |
| Validator.ValidateZip | plugin/src/de/intranda/goobi/plugins/utils/copy/ArchiveUtils.java:583-671 | true if and only if: every entry is a directory (name ends in "/") or is readable and, when comparing, has an original that can be read and hashes alike, or no original; the stream ends cleanly; and the count of all entries, directories included, equals `supposedFiles` |
| Validator.ValidateTar | plugin/src/de/intranda/goobi/plugins/utils/copy/ArchiveUtils.java:339-443 | true if and only if every non-directory entry is readable and, when comparing, has an original that can be read and hashes alike, or no original; and the stream ends cleanly; no count |
| Validator.ZipIsTarPlusCount | plugin/src/de/intranda/goobi/plugins/utils/copy/ArchiveUtils.java:583-671 | where both readers agree on which entries are directories, the zip verdict is the tar verdict plus the count check |
| Validator.TruncationOnlyZipNotices | plugin/src/de/intranda/goobi/plugins/utils/copy/ArchiveUtils.java:666-670 | an archive with one file where two were expected: the tar validator accepts it, the zip validator rejects it |
| Extractor.UnzipFile | plugin/src/de/intranda/goobi/plugins/utils/copy/ArchiveUtils.java:106-149 | as written: lists every entry, directory entries included, up to and including the first it cannot get past, and writes the bytes of those before it. Every entry is made as a regular file, so an entry below an earlier directory entry cannot be created; a blocked or obstructed target or an unreadable entry ends the loop, and every exception is caught. When only reading the stop entry's bytes failed, its file was already created and opened: it is recorded as cut short, and it is the last file listed |
| Extractor.UnzipFileFixed | plugin/src/de/intranda/goobi/plugins/utils/copy/ArchiveUtils.java:106-149 | with directory entries (names ending in "/") made by `mkdirs` and not listed, the loop of `untarFile` with every exception caught: the file entries up to and including the first it cannot get past, the bytes of those before it, and the stop entry's file as cut short exactly when its target was opened and only its bytes broke off |
| Extractor.ZipView | plugin/src/de/intranda/goobi/plugins/utils/copy/ArchiveUtils.java:116-122 | how a zip reader tells a directory entry: by a name ending in "/" (`ZipEntry.isDirectory()`); names and bodies are kept |
| Extractor.ExtractFiles | plugin/src/de/intranda/goobi/plugins/utils/copy/ArchiveUtils.java:299-320 | the extraction loop stops at the first entry it cannot get past; it returns the file entries listed up to and including that one and the bytes written for those before it. The stop entry's file is reported cut short exactly when its target was neither blocked nor obstructed; that entry is then a file entry whose bytes cannot be read |
| Extractor.ExtractPassing | plugin/src/de/intranda/goobi/plugins/utils/copy/ArchiveUtils.java:299-320 | the part of the loop that gets past entries: it stops exactly where `FirstStop` says, having listed the file entries before that point and written all their bytes |
| Extractor.FirstStop | plugin/src/de/intranda/goobi/plugins/utils/copy/ArchiveUtils.java:299-320 | where the loop stops: every entry before it gets past, given what the entries before each one made, and the one at it does not |
| Extractor.MadeByEntries | plugin/src/de/intranda/goobi/plugins/utils/copy/ArchiveUtils.java:299-309 | everything made in the destination is what one of the entries asked for |
| Extractor.TargetShape | plugin/src/de/intranda/goobi/plugins/utils/copy/ArchiveUtils.java:117 | an entry's target is its name without the trailing separators |
| Extractor.TargetOfPlainName | plugin/src/de/intranda/goobi/plugins/utils/copy/ArchiveUtils.java:117 | a name that does not end in the separator is its own target |
| Extractor.UnderTarget | plugin/src/de/intranda/goobi/plugins/utils/copy/ArchiveUtils.java:117 | a target at or below a path means the entry name is at or below it |
| Extractor.ClearNeverObstructed | plugin/src/de/intranda/goobi/plugins/utils/copy/ArchiveUtils.java:119-122 | among clear entries, nothing the earlier entries made is in a file entry's way |
| Extractor.NothingStops | plugin/src/de/intranda/goobi/plugins/utils/copy/ArchiveUtils.java:299-320 | the loop gets past every entry of a clear, undamaged archive whose file targets were not blocked beforehand |
| Extractor.UntarFile | plugin/src/de/intranda/goobi/plugins/utils/copy/ArchiveUtils.java:274-329 | directory entries are made and never listed. At a target blocked beforehand, or obstructed by what earlier entries made, the FileNotFoundException is caught and the list including that entry is returned. An unreadable entry or a broken stream lets the IOException escape. Otherwise every file entry is returned, all written. However the call ends, it also reports what it left in the destination: the files written before the stop, and the file cut short when an entry's bytes broke off after its file was opened, which happens only when the IOException escapes. On a normal return that record is the returned extraction |
| Extractor.Untarred | plugin/src/de/intranda/goobi/plugins/utils/copy/ArchiveUtils.java:274-329 | the outcome `untarFile` has: at the first entry the loop cannot get past, a caught FileNotFoundException returns the file entries listed so far, that one included, when its target is blocked or obstructed, and an IOException escapes when its body cannot be read; past the last entry, the whole list on a clean end and an IOException on a broken stream |
| Archive.TarRead | plugin/src/de/intranda/goobi/plugins/utils/copy/ArchiveUtils.java:301 | a tar reader reports an entry as a directory when it was written as one or when its name ends in "/" (`TarArchiveEntry.isDirectory()`); names and bytes are kept |
| RoundTrip.ZipArchiveValidates | plugin/src/de/intranda/goobi/plugins/utils/copy/ArchiveUtils.java:505-671 | a fresh zip archive read back passes `validateZip` when the originals agree and the count is the number of files and directories. It never passes with another count. With single-component names, a disagreeing original is always caught |
| RoundTrip.TarArchiveValidates | plugin/src/de/intranda/goobi/plugins/utils/copy/ArchiveUtils.java:158-443 | a fresh tar archive as the tar reader reports it, even one cut short by a file that could not be opened, passes `validateTar` if and only if the originals agree for the entries it reports as files |
| RoundTrip.TarFileUnderDirectoryName | plugin/src/de/intranda/goobi/plugins/utils/copy/ArchiveUtils.java:231-235 | a regular file mapped to "x/" is written as a file entry but read back as a directory, so `validateTar` skips it and accepts the archive against a different original |
| RoundTrip.StoredFileNames | plugin/src/de/intranda/goobi/plugins/utils/copy/ArchiveUtils.java:299-305 | read back, an archive's non-directory entries are the written file entries' names, in order |
| RoundTrip.StoredFileBytes | plugin/src/de/intranda/goobi/plugins/utils/copy/ArchiveUtils.java:309-315 | the file entries read back hold exactly the bytes the writer fed to its digest |
| RoundTrip.StoredAllBytes | plugin/src/de/intranda/goobi/plugins/utils/copy/ArchiveUtils.java:116-128 | all entries read back, directories included, hold the bytes fed to the digest |
| RoundTrip.ZipThenUnzip | plugin/src/de/intranda/goobi/plugins/utils/copy/ArchiveUtils.java:106-149 | zipping a flat image folder and unzipping the archive as written into a fresh directory lists every file by name and writes exactly its bytes, in order; the extracted bytes hash to the digest `zipFiles` returned |
| RoundTrip.ZipThenUnzipFixed | plugin/src/de/intranda/goobi/plugins/utils/copy/ArchiveUtils.java:106-149 | a tidy, readable listing is archived, and unzipping it with directory entries made as directories lists every archived regular file; the extracted bytes hash to the digest `zipFiles` returned |
| RoundTrip.TarThenUntar | plugin/src/de/intranda/goobi/plugins/utils/copy/ArchiveUtils.java:274-329 | when `tarFiles` returned an archive, no archived entry is in another's way, and every file entry is a non-empty path not ending in "/", untarring what the tar reader reports succeeds, lists the file entries' names, and the extracted bytes hash to the digest `tarFiles` returned; no file is left cut short |
| RoundTrip.TidyPathsExtractable | plugin/src/de/intranda/goobi/plugins/utils/copy/ArchiveUtils.java:193-265 | archive paths that form a tidy listing give such entries, in the walk and so in any archive returned |
| RoundTrip.TidyIsExtractable | plugin/src/de/intranda/goobi/plugins/utils/copy/ArchiveUtils.java:545-577 | the entries a tidy listing is written as can all be extracted |
| RoundTrip.ExtractableIsClear | plugin/src/de/intranda/goobi/plugins/utils/copy/ArchiveUtils.java:117-122 | read back without damage, such entries are clear for extraction |
| RoundTrip.UnzipDirectoryEntryBlocks | plugin/src/de/intranda/goobi/plugins/utils/copy/ArchiveUtils.java:116-122 | on the zip of a directory "d" holding a file "a": as written, unzipping stops at "d/a"; with directory entries made as directories it gets through both entries |
| RoundTrip.TarPathThroughFile | plugin/src/de/intranda/goobi/plugins/utils/copy/ArchiveUtils.java:299-323 | with the paths "x" and "x/y": the archive is written; untarring writes "x", cannot open "x/y", catches the FileNotFoundException, and still returns "x/y" in the list |
| RoundTrip.NamedTarIsZip | plugin/src/de/intranda/goobi/plugins/utils/copy/ArchiveUtils.java:193-196 | a tar map sending each file to its own name walks like the zip loop over the same files |
| RoundTrip.TarMatchesZip | plugin/src/de/intranda/goobi/plugins/utils/copy/ArchiveUtils.java:158-265 | under their own names, the tar is written unless the first file that cannot be read breaks off mid-read; the same files give the same entries and the same digest in both formats whenever the zip is written; when only the zip aborts (a file that cannot be opened, or a repeated name), its entries begin the tar archive, and are all of it when no name repeats; when the tar aborts, so does the zip, with the same exception, and its partial entries begin the tar's |
| RoundTrip.ZipOfFlatFolder | plugin/src/de/intranda/goobi/plugins/utils/copy/ArchiveUtils.java:545-565 | zipping regular files at the root gives one entry per file, named after it, with its bytes, in order |
| RoundTrip.FlatFolderValidates | plugin/src/de/intranda/goobi/plugins/utils/copy/ArchiveUtils.java:583-671 | the zip of a folder of distinct regular files passes `validateZip` with comparison against that folder and the file count |
| RoundTrip.FlatFolderDetectsDamage | plugin/src/de/intranda/goobi/plugins/utils/copy/ArchiveUtils.java:626-640 | both validators reject the archive, whatever count is expected, if one entry's bytes hash differently from the original or cannot be read |
| RelativePath.GetRelativePath | plugin/src/de/intranda/goobi/plugins/utils/copy/ArchiveUtils.java:488-503 | below the parent: the components under it, each non-file followed by "/". Not below it: an absolute file gives "/" and its whole path, a relative file its whole path with no leading "/" |
| RelativePath.Matched | plugin/src/de/intranda/goobi/plugins/utils/copy/ArchiveUtils.java:491-496 | the walk stops at the first prefix whose absolute path is the parent's, with the components below it rendered |
| RelativePath.RanOffTop | plugin/src/de/intranda/goobi/plugins/utils/copy/ArchiveUtils.java:497-499 | when no prefix matches, the walk runs off the top: past the root of an absolute path (a leading "/") or past the first name of a relative path (none) |
| RelativePath.RelativeOfFileBelow | plugin/src/de/intranda/goobi/plugins/utils/copy/ArchiveUtils.java:491-500 | for a regular file reached through directories, the result is the names joined by "/" |
| RelativePath.RenderAllEndsWithSep | plugin/src/de/intranda/goobi/plugins/utils/copy/ArchiveUtils.java:493-496 | the result ends with "/" if and only if the file itself is not a regular file |
| Delivery.SetDownloadUrl | goobi-plugin-step-imageexport/src/de/intranda/goobi/plugins/ImageDeliveryPlugin.java:136-151 | the find-or-append loop gives the first DOWNLOADURL property the URL, or appends one |
| Delivery.UpdateFirstOnly | goobi-plugin-step-imageexport/src/de/intranda/goobi/plugins/ImageDeliveryPlugin.java:136-143 | with a DOWNLOADURL property present, only the first one changes and only its value; the length and all other properties are unchanged |
| Delivery.AppendWhenMissing | goobi-plugin-step-imageexport/src/de/intranda/goobi/plugins/ImageDeliveryPlugin.java:145-151 | with none present, exactly one property titled DOWNLOADURL with the URL is appended after the unchanged list |
| Delivery.LookupAfterSet | goobi-plugin-step-imageexport/src/de/intranda/goobi/plugins/ImageDeliveryPlugin.java:136-151 | reading DOWNLOADURL afterwards gives the URL just recorded |
| Delivery.SetTwice | goobi-plugin-step-imageexport/src/de/intranda/goobi/plugins/ImageDeliveryPlugin.java:136-151 | recording twice equals recording the last URL once: re-running the step does not pile up properties |
| Delivery.FileName | goobi-plugin-step-imageexport/src/de/intranda/goobi/plugins/ImageDeliveryPlugin.java:132 | `getName()` is the longest separator-free suffix of the path: the whole path when it has no separator, otherwise what follows the last one |
| Delivery.ArchiveName | goobi-plugin-step-imageexport/src/de/intranda/goobi/plugins/ImageDeliveryPlugin.java:76-77 | the archive file is named `hash + "_" + title + ".zip"`; what the URL keeps of it is stated by PlainTitleUrl and TitleWithSeparatorUrl |
| Delivery.DownloadUrl | goobi-plugin-step-imageexport/src/de/intranda/goobi/plugins/ImageDeliveryPlugin.java:132 | the URL is the server followed by `getName()` of the archive file |
| Delivery.ArchiveUrl | goobi-plugin-step-imageexport/src/de/intranda/goobi/plugins/ImageDeliveryPlugin.java:75-132 | the archive file's name, and so the URL, does not depend on the destination folder |
| Delivery.PlainTitleUrl | goobi-plugin-step-imageexport/src/de/intranda/goobi/plugins/ImageDeliveryPlugin.java:75-132 | the URL is `server + hash + "_" + title + ".zip"` if and only if neither the hash nor the title contains "/"; otherwise `getName()` drops everything up to the last one |
| Delivery.TitleWithSeparatorUrl | goobi-plugin-step-imageexport/src/de/intranda/goobi/plugins/ImageDeliveryPlugin.java:75-132 | for any title holding a separator, the URL carries only the part after the last one, followed by `.zip`: the hash and everything before it are lost |
| Delivery.Execute | goobi-plugin-step-imageexport/src/de/intranda/goobi/plugins/ImageDeliveryPlugin.java:64-161 | success if and only if saved. No images if and only if the listing is null or empty. Properties are untouched on the three early exits. Past them, validation was called with comparison, the image folder and the file count, and the properties are exactly the old list with DOWNLOADURL recorded as the URL. Saved if and only if every stage succeeds |
| Pipeline.FreshArchiveIsDelivered | goobi-plugin-step-imageexport/src/de/intranda/goobi/plugins/ImageDeliveryPlugin.java:89-110 | when the image folder is zipped and validated as modelled, the step never reports a corrupted archive, and it succeeds exactly when the save succeeds |

## Left out

- Zip, tar and gzip byte layouts, `ZipEntry`/`TarArchiveEntry` headers and the gzip choice by ".gz" suffix. An archive is its entry sequence.
- MD5 internals. The digest is an uninterpreted parameter, and `MessageDigest.isEqual` is sequence equality.
- The MD5-unavailable path. `checksum.digest()` on a null digest would throw, so MD5 is assumed available.
- File-system side effects outside the extractors:
  - the writers' `mkdirs` of the archive's folder and their append-mode output streams;
  - the validators' temporary files, their basename naming, existence checks and deletion;
  - stream closing in `finally` blocks and the IOException `close` may throw there, except the one case the tar writer forces: closing `tos` while an entry is still open (modelled in `TarWriter.TarFiles`).
- The extractors' destination starts empty. What the earlier entries made there is modelled; anything else that makes a target fail (permissions, a full disk, files already present) is the parameter `blocked`: the names whose target cannot be opened.
- Entry-name normalisation by `new File(destDir, name)`: only trailing separators are dropped. Repeated separators, "." and ".." components and absolute entry names are not resolved.
- `unGzipFile` and `copyFile`. They are byte-pumping helpers outside the modelled core.
- A null destination file or null source array. A null array returns null like an empty one. For `tarFiles`, `tarFile.getName()` runs before the null check, so a null destination throws.
- Directory entry bodies. The validators skip them before reading, and the model never reads them.
- Extractor.ExtractFiles: the contents of a file left cut short are not modelled, only that it exists. Which prefix of the entry's bytes reached the disk depends on where `BufferedOutputStream` flushed, and the stream is never closed.
- `File.separator` is '/'.
- The tar library's entry-name normalisation. A tar entry's name is the path exactly as given.
- `HashMap` iteration order. The tar map is a sequence in iteration order.
- ZipWriter.ZipFiles: a failure writing the archive itself (a full disk in `zos.write`) is not modelled; the output stream is taken to accept every byte.
- TarWriter.TarFiles: a failure writing the archive itself is not modelled. Like a read that breaks off, it would leave the entry open, so the IOException caught at line 199 would be followed by one from `tos.close()` that escapes.
- TarWriter.TarFiles: names of 100 or more characters are not modelled. The tar library's default long-name mode rejects them with an unchecked exception that the IOException handlers do not catch, so such a call throws instead of returning a digest.
- TarWriter.TarFilesAsWritten: the same long-name exception is left out, so it is not among the exceptions said to escape.
- Validator.ValidateZip: a temporary file that cannot be created is not modelled, so the "unable to create file" rejection is missing.
- Validator.ValidateTar: a temporary file that cannot be created is not modelled, so the "unable to create file" rejection is missing.
- RelativePath.GetRelativePath: absolute paths are compared as component lists. That agrees with comparing their strings only when no name is empty or contains '/'.
- Delivery.Execute:
  - the title hash, configuration lookups, logging and `createMessages` are opaque or omitted;
  - an exception from `getImagesTifDirectory` is folded into the listing;
  - `getEigenschaftenList()` and `getEigenschaften()` are taken to be the same list.

## Findings

| source | as written | input that shows it | evidently intended | confidence | as-written member | corrected member |
|---|---|---|---|---|---|---|
| plugin/src/de/intranda/goobi/plugins/utils/copy/ArchiveUtils.java:525-527 | the debug line calls `file.getAbsolutePath()` before `zipFile` is called, so a null element throws a NullPointerException before `zipFile`'s null check (540-543) can skip it | `sourceFiles = {null, a.tif}` | the null element is skipped with an error message and `a.tif` is archived | not executed | ZipWriter.ZipNullElementAborts | ZipWriter.ZipFiles |
| plugin/src/de/intranda/goobi/plugins/utils/copy/ArchiveUtils.java:193-195 | the debug line calls `file.getAbsolutePath()` on the map key before `tarFile`'s null check (221-224); the resulting NullPointerException is not caught by the IOException handlers | `fileMap = {null -> "x", a.tif -> "a.tif"}` with the null key iterated first | the null key is skipped and `a.tif` is archived | not executed | TarWriter.TarNullKeyAborts | TarWriter.TarFiles |
| plugin/src/de/intranda/goobi/plugins/utils/copy/ArchiveUtils.java:116-122 | every entry, a directory entry too, is created with `createNewFile` and opened for writing, so a directory entry "d/" becomes an empty regular file "d"; the next entry below "d" cannot be created, the IOException is caught (141-144) and extraction ends | the zip of a directory "d" holding one file "a", entries "d/" and "d/a" | a directory entry is made with `mkdirs` and skipped, as `untarFile` does at 301-304, so every file of a tidy tree is extracted | not executed | RoundTrip.UnzipDirectoryEntryBlocks | Extractor.UnzipFileFixed |

=== FILE: archive.dfy ===
/** An archive as a reader sees it: the entries in archive order, each with
    the bytes that can be read from it or a read failure, and whether asking
    for the next entry after the last one ends the stream cleanly or throws.
    The container byte layout (zip, tar, gzip envelope) is abstracted away. */
module Archive {
  import opened Base
  import opened FileTree

  datatype Body = Intact(data: Bytes) | Corrupt

  /** `dirFlag` is what a tar reader reports as `isDirectory()` for the entry;
      a zip reader has no flag and goes by the name instead (IsZipDirectory). */
  datatype StoredEntry = StoredEntry(name: string, dirFlag: bool, body: Body)

  datatype ArchiveStream = ArchiveStream(entries: seq<StoredEntry>, endsCleanly: bool)

  /** `ZipEntry.isDirectory()`: the name ends with the separator. */
  predicate IsZipDirectory(e: StoredEntry) {
    EndsWith(e.name, [Sep])
  }

  /** An archive exactly as a writer produced it, read back without damage. */
  function Stored(es: seq<Entry>): (s: ArchiveStream)
    ensures |s.entries| == |es| && s.endsCleanly
    ensures forall i :: 0 <= i < |es| ==>
      s.entries[i] == StoredEntry(es[i].name, es[i].isDir, Intact(es[i].data))
  {
    ArchiveStream(seq(|es|, i requires 0 <= i < |es| => StoredEntry(es[i].name, es[i].isDir, Intact(es[i].data))), true)
  }

  /** The entries as a tar reader reports them: `TarArchiveEntry.isDirectory()`
      holds for a directory entry and also for any entry whose name ends with
      the separator, so a regular file stored under such a path reads back
      as a directory. */
  function TarRead(es: seq<Entry>): (v: seq<Entry>)
    ensures |v| == |es|
    ensures forall i :: 0 <= i < |es| ==>
      v[i] == Entry(es[i].name, es[i].isDir || EndsWith(es[i].name, [Sep]), es[i].data)
  {
    seq(|es|, i requires 0 <= i < |es| => Entry(es[i].name, es[i].isDir || EndsWith(es[i].name, [Sep]), es[i].data))
  }

  /** When no file entry's name ends with the separator, the tar reader sees
      the entries exactly as written. */
  lemma TarReadPlain(es: seq<Entry>)
    requires forall i :: 0 <= i < |es| && !es[i].isDir ==> !EndsWith(es[i].name, [Sep])
    ensures TarRead(es) == es
  {
  }
}

=== FILE: base.dfy ===
/** Shared vocabulary of the archive model: bytes, digests, optional values,
    the Java exceptions the engine lets escape, and a few sequence helpers. */
module Base {

  /** One byte as the value `b & 0xff` the engine works with (0..255). */
  type byte = b: int | 0 <= b < 0x100

  type Bytes = seq<byte>

  /** A message digest (MD5 in the engine), left uninterpreted: the model only
      relies on it being a function of the bytes fed to it. Feeding a digest
      object several buffers and then calling `digest()` yields the digest of
      the concatenation of those buffers. */
  type DigestFn = Bytes -> Bytes

  /** The path separator (`File.separator` on a POSIX system). */
  const Sep: char := '/'

  datatype Option<+T> = None | Some(value: T)

  /** Exceptions that can escape an operation of the engine. */
  datatype Exception = IOException | FileNotFoundException | NullPointerException

  /** A FileNotFoundException is an IOException and is caught as one. */
  predicate IsIOException(e: Exception) {
    e.IOException? || e.FileNotFoundException?
  }

  datatype Result<+T> = Ok(value: T) | Thrown(cause: Exception)

  predicate StartsWith<T(==)>(s: seq<T>, prefix: seq<T>) {
    |prefix| <= |s| && s[..|prefix|] == prefix
  }

  predicate EndsWith<T(==)>(s: seq<T>, suffix: seq<T>) {
    |suffix| <= |s| && s[|s| - |suffix|..] == suffix
  }

  /** `f` applied to every element, in order. */
  function Map<A, B>(f: A -> B, xs: seq<A>): (r: seq<B>)
    ensures |r| == |xs| && forall i :: 0 <= i < |xs| ==> r[i] == f(xs[i])
  {
    seq(|xs|, i requires 0 <= i < |xs| => f(xs[i]))
  }

  /** `p` names the path `q` or a path below it. */
  predicate Under(p: string, q: string) {
    p == q || StartsWith(p, q + [Sep])
  }

  lemma UnderTransitive(p: string, q: string, r: string)
    requires Under(p, q) && Under(q, r)
    ensures Under(p, r)
  {
    if p != q && q != r {
      assert p[..|r| + 1] == p[..|q| + 1][..|r| + 1];
    }
  }

  /** Below two different single names in the same place there is no
      common path. */
  lemma UnderOneName(p: string, dir: string, a: string, b: string)
    requires |a| > 0 && |b| > 0 && Sep !in a && Sep !in b
    requires Under(p, dir + a) && Under(p, dir + b)
    ensures a == b
  {
    if |a| < |b| {
      LongerNameHasSep(p, dir, a, b);
    } else if |b| < |a| {
      LongerNameHasSep(p, dir, b, a);
    } else {
      UnderPrefix(p, dir + a);
      UnderPrefix(p, dir + b);
      assert dir + a == p[..|dir| + |a|] == dir + b;
      assert a == (dir + a)[|dir|..] == (dir + b)[|dir|..] == b;
    }
  }

  /** A path under `q` begins with `q`. */
  lemma UnderPrefix(p: string, q: string)
    requires Under(p, q)
    ensures |q| <= |p| && p[..|q|] == q
  {
    if p != q {
      assert p[..|q|] == p[..|q| + 1][..|q|];
      assert (q + [Sep])[..|q|] == q;
    }
  }

  /** A path under `dir + a` and under a longer `dir + b`: `b` continues
      `a` with the separator. */
  lemma LongerNameHasSep(p: string, dir: string, a: string, b: string)
    requires |a| < |b| && Under(p, dir + a) && Under(p, dir + b)
    ensures b[|a|] == Sep
  {
    assert p[..|dir + b|] == dir + b;
    assert p != dir + a;
    assert p[..|dir + a| + 1] == dir + a + [Sep];
    assert b[|a|] == (dir + b)[|dir| + |a|];
  }

  /** Concatenation of a sequence of byte buffers, in order. */
  function Flatten(chunks: seq<Bytes>): Bytes {
    if |chunks| == 0 then [] else Flatten(chunks[..|chunks| - 1]) + chunks[|chunks| - 1]
  }

  /** Splitting the buffers anywhere splits their concatenation there too. */
  lemma {:induction false} FlattenSplit(chunks: seq<Bytes>, k: nat)
    requires k <= |chunks|
    ensures Flatten(chunks) == Flatten(chunks[..k]) + Flatten(chunks[k..])
    decreases |chunks|
  {
    if k == |chunks| {
      assert chunks[..k] == chunks;
      assert chunks[k..] == [];
    } else {
      var n := |chunks|;
      var init := chunks[..n - 1];
      FlattenSplit(init, k);
      assert init[..k] == chunks[..k];
      var tail := chunks[k..];
      assert tail[..|tail| - 1] == init[k..];
      assert tail[|tail| - 1] == chunks[n - 1];
      assert Flatten(tail) == Flatten(init[k..]) + chunks[n - 1];
    }
  }

  /** Two sequences agreeing on all but their last two elements, and on those. */
  lemma EqualByLastTwo<T>(a: seq<T>, b: seq<T>)
    requires |a| == |b| >= 2
    requires a[..|a| - 2] == b[..|b| - 2]
    requires a[|a| - 2] == b[|b| - 2] && a[|a| - 1] == b[|b| - 1]
    ensures a == b
  {
    var n := |a|;
    assert forall i :: 0 <= i < n - 2 ==> a[i] == a[..n - 2][i] == b[..n - 2][i] == b[i];
  }
}

=== FILE: checksum.dfy ===
/** The checksum helpers of the archive engine: a file is read through a
    buffer, every non-empty read is fed to the digest, and the digest is
    taken once the stream reports end of file. `createMD5Checksum` and
    `createChecksum` are the same loop under two names; `getMD5Checksum`
    renders the result as hex text.

    Reading a file is modelled by what happens when it is opened and read:
    either opening throws, or the successive `read(buffer)` calls return a
    sequence of buffers (possibly empty ones), after which the next `read`
    either returns -1 or throws. The file's bytes are the buffers
    concatenated. */
module Checksum {
  import opened Base
  import Hex

  datatype Readout = OpenFails | Opens(chunks: seq<Bytes>, endsCleanly: bool)

  /** A readout that delivers `content` and reaches end of file. */
  predicate Delivers(file: Readout, content: Bytes) {
    file.Opens? && file.endsCleanly && Flatten(file.chunks) == content
  }

  /** The outcome of call number `k` to `read(buffer)`: the number of bytes
      delivered, -1 at end of stream, or the IOException of a failed read. */
  function Read(file: Readout, k: nat): (r: Result<int>)
    requires file.Opens?
    ensures r.Ok? && r.value >= 0 <==> k < |file.chunks|
    ensures r.Ok? && r.value >= 0 ==> r.value == |file.chunks[k]|
    ensures r.Thrown? <==> k >= |file.chunks| && !file.endsCleanly
  {
    if k < |file.chunks| then Ok(|file.chunks[k]|)
    else if file.endsCleanly then Ok(-1)
    else Thrown(IOException)
  }

  /** `createChecksum`: the digest of exactly the bytes the file delivers,
      however the stream chops them up. A file that cannot be opened throws
      a FileNotFoundException, a read that fails an IOException; either
      escapes. */
  method CreateChecksum(file: Readout, md5: DigestFn) returns (r: Result<Bytes>)
    ensures r.Ok? <==> file.Opens? && file.endsCleanly
    ensures r.Ok? ==> r.value == md5(Flatten(file.chunks))
    ensures file.OpenFails? ==> r == Thrown(FileNotFoundException)
    ensures file.Opens? && !file.endsCleanly ==> r == Thrown(IOException)
  {
    if file.OpenFails? {
      return Thrown(FileNotFoundException);   // new FileInputStream(file)
    }
    var chunks := file.chunks;
    var fed: Bytes := [];   // everything handed to `complete.update` so far
    var k := 0;
    var numRead := Read(file, k);
    while numRead != Ok(-1)
      invariant 0 <= k <= |chunks|
      invariant numRead == Read(file, k)
      invariant fed == Flatten(chunks[..k])
      decreases |chunks| - k
    {
      if numRead.Thrown? {
        return Thrown(IOException);
      }
      if numRead.value > 0 {
        fed := fed + chunks[k];
      }
      assert chunks[..k + 1][..k] == chunks[..k];
      k := k + 1;
      FlattenSplit(chunks[..k], k - 1);
      assert chunks[..k][k - 1..] == [chunks[k - 1]];
      numRead := Read(file, k);
    }
    assert chunks[..k] == chunks;
    r := Ok(md5(fed));
  }

  /** `createMD5Checksum`: the same loop as `createChecksum`. */
  method CreateMD5Checksum(file: Readout, md5: DigestFn) returns (r: Result<Bytes>)
    ensures r.Ok? <==> file.Opens? && file.endsCleanly
    ensures r.Ok? ==> r.value == md5(Flatten(file.chunks))
    ensures file.OpenFails? ==> r == Thrown(FileNotFoundException)
    ensures file.Opens? && !file.endsCleanly ==> r == Thrown(IOException)
  {
    r := CreateChecksum(file, md5);
  }

  /** `getMD5Checksum`: the file's digest as lowercase hex text, two
      characters per digest byte, from which the digest can be read back;
      a failure to read the file escapes. */
  method GetMD5Checksum(file: Readout, md5: DigestFn) returns (r: Result<string>)
    ensures r.Ok? <==> file.Opens? && file.endsCleanly
    ensures file.OpenFails? ==> r == Thrown(FileNotFoundException)
    ensures file.Opens? && !file.endsCleanly ==> r == Thrown(IOException)
    ensures r.Ok? ==> var d := md5(Flatten(file.chunks));
      && r.value == Hex.Hex(d)
      && |r.value| == 2 * |d|
      && (forall i :: 0 <= i < |r.value| ==> Hex.IsLowerHexDigit(r.value[i]))
      && Hex.ParseHex(r.value) == Some(d)
  {
    var b := CreateMD5Checksum(file, md5);
    if b.Thrown? {
      return Thrown(b.cause);
    }
    var hex := Hex.ConvertChecksumToHex(b.value);
    Hex.HexOfParseHex(hex, b.value);
    r := Ok(hex);
  }

  /** Any two ways of reading the same file give the same checksum. */
  method SameFileSameChecksum(content: Bytes, file1: Readout, file2: Readout, md5: DigestFn)
    returns (d1: Result<Bytes>, d2: Result<Bytes>)
    requires Delivers(file1, content) && Delivers(file2, content)
    ensures d1 == d2 == Ok(md5(content))
  {
    d1 := CreateChecksum(file1, md5);
    d2 := CreateMD5Checksum(file2, md5);
  }
}

=== FILE: extractor.dfy ===
/** `unzipFile` and `untarFile`: stream the entries of an archive into a
    destination directory and return the list of files created. The
    destination starts empty apart from `blocked`, the entry names whose
    target cannot be opened for writing for reasons outside the archive (a
    read-only directory, something already there). What the earlier entries
    made is tracked, so an entry whose target the archive itself has put out
    of reach fails as it would on disk. */
module Extractor {
  import opened Base
  import opened Archive

  /** A file created in the destination directory, with the bytes written to it. */
  datatype Extracted = Extracted(path: string, data: Bytes)

  /** The returned list of files, the files whose bytes were all written,
      and the file, if any, that was created and opened for the entry whose
      bytes could not be read to the end: it is left holding only part of
      them. */
  datatype Extraction = Extraction(listed: seq<string>, written: seq<Extracted>, cutShort: Option<string>)

  function EntryName(e: StoredEntry): string { e.name }

  function EntryNames(es: seq<StoredEntry>): seq<string> {
    Map(EntryName, es)
  }

  /** The bytes written for each entry, in order. */
  function Contents(es: seq<StoredEntry>): (r: seq<Extracted>)
    requires forall i :: 0 <= i < |es| ==> es[i].body.Intact?
    ensures |r| == |es|
    ensures forall i :: 0 <= i < |es| ==> r[i] == Extracted(es[i].name, es[i].body.data)
  {
    seq(|es|, i requires 0 <= i < |es| => Extracted(es[i].name, es[i].body.data))
  }

  /** The entries without the directory flag. */
  function NonDirectories(es: seq<StoredEntry>): (r: seq<StoredEntry>)
    ensures |r| <= |es|
    ensures forall i :: 0 <= i < |r| ==> !r[i].dirFlag && r[i] in es
  {
    if |es| == 0 then []
    else (if es[0].dirFlag then [] else [es[0]]) + NonDirectories(es[1..])
  }

  /** Where an entry lands: `new File(destDir, name)` drops the separators
      at the end of the name. */
  function Target(name: string): string {
    if |name| > 0 && name[|name| - 1] == Sep then Target(name[..|name| - 1]) else name
  }

  /** The target is the name up to its trailing separators. */
  lemma {:induction false} TargetShape(name: string)
    ensures var t := Target(name);
      && |t| <= |name| && t == name[..|t|]
      && (forall k :: |t| <= k < |name| ==> name[k] == Sep)
      && (|t| == 0 || t[|t| - 1] != Sep)
    decreases |name|
  {
    if |name| > 0 && name[|name| - 1] == Sep {
      var prior := name[..|name| - 1];
      TargetShape(prior);
      assert prior[..|Target(prior)|] == name[..|Target(prior)|];
    }
  }

  /** What an entry asks of the destination: a directory (`mkdirs`), or a
      regular file (its parent made with `mkdirs`, then opened for writing). */
  datatype Make = Make(target: string, asDir: bool)

  function Step(e: StoredEntry): Make {
    Make(Target(e.name), e.dirFlag)
  }

  /** `p` lies strictly below the directory `q`. */
  predicate Below(p: string, q: string) {
    StartsWith(p, q + [Sep])
  }

  /** A regular file has been made at a directory above `t`. */
  predicate FileAbove(made: seq<Make>, t: string) {
    exists j :: 0 <= j < |made| && !made[j].asDir && Below(t, made[j].target)
  }

  /** `t` is a directory: the destination itself, one made by `mkdirs`, or
      one made on the way to something below it. */
  predicate IsDirectory(made: seq<Make>, t: string) {
    || t == []
    || exists j :: 0 <= j < |made| && ((made[j].asDir && made[j].target == t) || Below(made[j].target, t))
  }

  /** A regular file cannot be written at `t`: a file above it makes the
      parent impossible to create, and a directory at `t` cannot be opened
      for writing. Either way the open fails. */
  predicate Obstructed(made: seq<Make>, t: string) {
    FileAbove(made, t) || IsDirectory(made, t)
  }

  /** The destination after one more entry. `mkdirs` quietly does nothing
      when a regular file is in the way; a regular file is only made when
      it was not obstructed, and otherwise extraction ends. */
  function Next(made: seq<Make>, e: StoredEntry): seq<Make> {
    var st := Step(e);
    if st.asDir && (FileAbove(made, st.target) || exists j :: 0 <= j < |made| && !made[j].asDir && made[j].target == st.target)
    then made
    else made + [st]
  }

  /** What the entries made in a fresh destination, in order. */
  function Made(es: seq<StoredEntry>): seq<Make> {
    if |es| == 0 then [] else Next(Made(es[..|es| - 1]), es[|es| - 1])
  }

  /** Everything made is what one of the entries asked for. */
  lemma {:induction false} MadeByEntries(es: seq<StoredEntry>)
    ensures forall x :: x in Made(es) ==> exists j :: 0 <= j < |es| && x == Step(es[j])
    decreases |es|
  {
    if |es| > 0 {
      var prior := es[..|es| - 1];
      MadeByEntries(prior);
      assert forall j :: 0 <= j < |prior| ==> prior[j] == es[j];
    }
  }

  lemma MadeSnoc(es: seq<StoredEntry>, i: nat)
    requires i < |es|
    ensures Made(es[..i + 1]) == Next(Made(es[..i]), es[i])
  {
    assert es[..i + 1][..i] == es[..i];
  }

  /** The extraction loop gets past an entry that is a directory (made, or
      quietly not), or whose target is not blocked beforehand, can be opened
      for writing among what the earlier entries made, and whose bytes can
      be read. */
  predicate Passes(e: StoredEntry, made: seq<Make>, blocked: set<string>) {
    e.dirFlag || (e.name !in blocked && e.body.Intact? && !Obstructed(made, Target(e.name)))
  }

  /** The loop stopped at entry `k` after its target was opened: only the
      entry's bytes failed to read. */
  predicate BrokeOff(es: seq<StoredEntry>, blocked: set<string>, k: nat) {
    k < |es| && es[k].name !in blocked && !Obstructed(Made(es[..k]), Target(es[k].name))
  }

  /** Index of the first entry the extraction loop does not get past, or the
      number of entries. */
  function FirstStop(es: seq<StoredEntry>, blocked: set<string>): (k: nat)
    ensures k <= |es|
    ensures forall j :: 0 <= j < k ==> Passes(es[j], Made(es[..j]), blocked)
    ensures forall j :: 0 <= j < k ==> es[j].dirFlag || es[j].body.Intact?
    ensures k < |es| ==> !Passes(es[k], Made(es[..k]), blocked)
  {
    StopFrom(es, blocked, 0)
  }

  function StopFrom(es: seq<StoredEntry>, blocked: set<string>, i: nat): (k: nat)
    requires i <= |es|
    requires forall j :: 0 <= j < i ==> Passes(es[j], Made(es[..j]), blocked)
    ensures i <= k <= |es|
    ensures forall j :: 0 <= j < k ==> Passes(es[j], Made(es[..j]), blocked)
    ensures k < |es| ==> !Passes(es[k], Made(es[..k]), blocked)
    decreases |es| - i
  {
    if i == |es| || !Passes(es[i], Made(es[..i]), blocked) then i
    else StopFrom(es, blocked, i + 1)
  }

  lemma StopsAt(es: seq<StoredEntry>, blocked: set<string>, i: nat)
    requires i <= |es|
    requires forall j :: 0 <= j < i ==> Passes(es[j], Made(es[..j]), blocked)
    requires i < |es| ==> !Passes(es[i], Made(es[..i]), blocked)
    ensures FirstStop(es, blocked) == i
  {
  }

  lemma EntryNamesSnoc(es: seq<StoredEntry>, e: StoredEntry)
    ensures EntryNames(es + [e]) == EntryNames(es) + [e.name]
  {
  }

  lemma ContentsSnoc(es: seq<StoredEntry>, e: StoredEntry)
    requires forall i :: 0 <= i < |es| ==> es[i].body.Intact?
    requires e.body.Intact?
    ensures Contents(es + [e]) == Contents(es) + [Extracted(e.name, e.body.data)]
  {
  }

  /** The loop shared by both extractors, over entries whose directory flag
      says which are made with `mkdirs`: directory entries are made and not
      listed; a file entry is listed, then its target opened and its bytes
      written. It stops at the first entry it cannot get past, returning
      where, the file entries listed up to and including that one, the
      bytes written for those before it, and that entry's name when its
      file was opened and its bytes then broke off. */
  method ExtractFiles(es: seq<StoredEntry>, blocked: set<string>)
    returns (listed: seq<string>, written: seq<Extracted>, cut: Option<string>, k: nat)
    ensures k == FirstStop(es, blocked)
    ensures listed == EntryNames(NonDirectories(es[..if k < |es| then k + 1 else k]))
    ensures written == Contents(NonDirectories(es[..k]))
    ensures cut.Some? <==> BrokeOff(es, blocked, k)
    ensures cut.Some? ==> cut.value == es[k].name && !es[k].dirFlag && es[k].body.Corrupt?
  {
    listed, written, k := ExtractPassing(es, blocked);
    cut := None;
    if k < |es| {
      // the entry the loop could not get past is a file entry: it is listed
      NonDirectoriesStep(es, k);
      EntryNamesSnoc(NonDirectories(es[..k]), es[k]);
      listed := listed + [es[k].name];
      if BrokeOff(es, blocked, k) {
        cut := Some(es[k].name);
      }
    }
  }

  /** The entries the loop gets past: directory entries made, file entries
      listed and written, up to the first entry it cannot get past. */
  method ExtractPassing(es: seq<StoredEntry>, blocked: set<string>)
    returns (listed: seq<string>, written: seq<Extracted>, k: nat)
    ensures k == FirstStop(es, blocked)
    ensures listed == EntryNames(NonDirectories(es[..k]))
    ensures written == Contents(NonDirectories(es[..k]))
  {
    listed := [];
    written := [];
    var made: seq<Make> := [];
    var i := 0;
    ghost var files: seq<StoredEntry> := [];   // the file entries met so far
    while i < |es|
      invariant 0 <= i <= |es|
      invariant i <= FirstStop(es, blocked)
      invariant made == Made(es[..i])
      invariant files == NonDirectories(es[..i])
      invariant forall j :: 0 <= j < |files| ==> files[j].body.Intact?
      invariant listed == EntryNames(files)
      invariant written == Contents(files)
    {
      var e := es[i];
      NonDirectoriesStep(es, i);
      MadeSnoc(es, i);
      if !Passes(e, made, blocked) {
        return listed, written, i;
      }
      if !e.dirFlag {
        EntryNamesSnoc(files, e);
        ContentsSnoc(files, e);
        listed := listed + [e.name];
        written := written + [Extracted(e.name, e.body.data)];
        files := files + [e];
      }
      made := Next(made, e);
      i := i + 1;
    }
    assert es[..i] == es;
    k := i;
  }

  /** How `unzipFile` as written sees every entry: as a regular file, since
      it never asks whether an entry is a directory. */
  function AsFiles(es: seq<StoredEntry>): (v: seq<StoredEntry>)
    ensures |v| == |es|
    ensures forall i :: 0 <= i < |es| ==> v[i] == StoredEntry(es[i].name, false, es[i].body)
  {
    seq(|es|, i requires 0 <= i < |es| => StoredEntry(es[i].name, false, es[i].body))
  }

  /** How a zip reader tells directories apart: by the name (IsZipDirectory). */
  function ZipView(es: seq<StoredEntry>): (v: seq<StoredEntry>)
    ensures |v| == |es|
    ensures forall i :: 0 <= i < |es| ==> v[i] == StoredEntry(es[i].name, IsZipDirectory(es[i]), es[i].body)
  {
    seq(|es|, i requires 0 <= i < |es| => StoredEntry(es[i].name, IsZipDirectory(es[i]), es[i].body))
  }

  /** `unzipFile(source, destDir)` as written. Every entry, a directory entry
      too, is listed, then its target created as an empty regular file and
      opened for writing, so a directory entry "d/" becomes a regular file
      "d" and any later entry below "d" cannot be created. A
      FileNotFoundException and every other IOException are caught: the list
      collected so far is returned, including the entry that failed, whose
      file is left cut short when only reading its bytes failed. */
  method UnzipFile(s: ArchiveStream, blocked: set<string>) returns (r: Extraction)
    ensures var k := FirstStop(AsFiles(s.entries), blocked);
      && r.written == Contents(s.entries[..k])
      && r.listed == EntryNames(s.entries[..if k < |s.entries| then k + 1 else k])
      && (r.cutShort.Some? <==> BrokeOff(AsFiles(s.entries), blocked, k))
      && (r.cutShort.Some? ==> s.entries[k].body.Corrupt? && r.cutShort.value == s.entries[k].name)
      && (r.cutShort.Some? ==> r.cutShort.value == r.listed[|r.listed| - 1])
  {
    var v := AsFiles(s.entries);
    var listed, written, cut, k := ExtractFiles(v, blocked);
    AsFilesPrefix(s.entries, k);
    if k < |s.entries| {
      AsFilesPrefix(s.entries, k + 1);
    }
    r := Extraction(listed, written, cut);
  }

  /** The file entries of the all-files view are the entries themselves. */
  lemma {:induction false} AsFilesPrefix(es: seq<StoredEntry>, k: nat)
    requires k <= |es|
    requires forall j :: 0 <= j < k ==> es[j].body.Intact? || j == k - 1
    ensures EntryNames(NonDirectories(AsFiles(es)[..k])) == EntryNames(es[..k])
    ensures (forall j :: 0 <= j < k ==> es[j].body.Intact?) ==>
      Contents(NonDirectories(AsFiles(es)[..k])) == Contents(es[..k])
  {
    var v := AsFiles(es)[..k];
    assert v == AsFiles(es[..k]);
    AllFilesKept(es[..k]);
  }

  lemma {:induction false} AllFilesKept(es: seq<StoredEntry>)
    ensures NonDirectories(AsFiles(es)) == AsFiles(es)
    decreases |es|
  {
    if |es| > 0 {
      assert AsFiles(es)[1..] == AsFiles(es[1..]);
      AllFilesKept(es[1..]);
    }
  }

  /** `unzipFile` as it is evidently meant to work, the way `untarFile` does
      it: a directory entry (a name ending in the separator) is made with
      `mkdirs` and not listed, every other entry as in `unzipFile`. */
  method UnzipFileFixed(s: ArchiveStream, blocked: set<string>) returns (r: Extraction)
    ensures var v := ZipView(s.entries);
      var k := FirstStop(v, blocked);
      && r.written == Contents(NonDirectories(v[..k]))
      && r.listed == EntryNames(NonDirectories(v[..if k < |v| then k + 1 else k]))
      && (r.cutShort.Some? <==> BrokeOff(v, blocked, k))
      && (r.cutShort.Some? ==> r.cutShort.value == s.entries[k].name && s.entries[k].body.Corrupt?)
  {
    var listed, written, cut, k := ExtractFiles(ZipView(s.entries), blocked);
    r := Extraction(listed, written, cut);
  }

  /** A name that does not end in the separator is its own target. */
  lemma TargetOfPlainName(name: string)
    requires !EndsWith(name, [Sep])
    ensures Target(name) == name
  {
    TargetShape(name);
  }

  /** Landing at or below `q` means the name itself is at or below `q`. */
  lemma UnderTarget(name: string, q: string)
    requires Under(Target(name), q)
    ensures Under(name, q)
  {
    TargetShape(name);
    var t := Target(name);
    if t == q {
      if |name| > |t| {
        assert name[..|q| + 1] == q + [Sep];
      }
    } else {
      assert name[..|q| + 1] == t[..|q| + 1];
    }
  }

  /** Every entry has a place of its own: a file entry lands somewhere other
      than the destination itself, and no other entry lands at or below
      where a file entry lands. */
  predicate Clear(es: seq<StoredEntry>) {
    && (forall i :: 0 <= i < |es| && !es[i].dirFlag ==> Target(es[i].name) != [])
    && forall i, j :: 0 <= i < |es| && 0 <= j < |es| && i != j && !es[i].dirFlag ==>
         !Under(Target(es[j].name), Target(es[i].name))
  }

  /** Among clear entries, nothing the earlier ones made is in a file
      entry's way. */
  lemma ClearNeverObstructed(es: seq<StoredEntry>, i: nat)
    requires Clear(es) && i < |es| && !es[i].dirFlag
    ensures !Obstructed(Made(es[..i]), Target(es[i].name))
  {
    var t := Target(es[i].name);
    var m := Made(es[..i]);
    MadeByEntries(es[..i]);
    forall j | 0 <= j < |m|
      ensures !(!m[j].asDir && Below(t, m[j].target))
      ensures !((m[j].asDir && m[j].target == t) || Below(m[j].target, t))
    {
      assert m[j] in m;
      var l :| 0 <= l < i && m[j] == Step(es[..i][l]);
      assert es[..i][l] == es[l];
      assert l != i;
    }
  }

  /** Extraction gets past every entry of a clear, undamaged archive whose
      file targets are not blocked beforehand. */
  lemma NothingStops(es: seq<StoredEntry>, blocked: set<string>)
    requires Clear(es)
    requires forall i :: 0 <= i < |es| && !es[i].dirFlag ==> es[i].name !in blocked && es[i].body.Intact?
    ensures FirstStop(es, blocked) == |es|
  {
    forall i | 0 <= i < |es|
      ensures Passes(es[i], Made(es[..i]), blocked)
    {
      if !es[i].dirFlag {
        ClearNeverObstructed(es, i);
      }
    }
    StopsAt(es, blocked, |es|);
  }

  /** What `untarFile` returns, stated by where the loop stops: at a target
      blocked beforehand or obstructed by what the earlier entries made, the
      FileNotFoundException is caught and the file entries up to and
      including that one are returned, all but that one written; at an
      entry that cannot be read, or at a broken stream after the last entry,
      the IOException escapes; otherwise every file entry is returned, all
      written. */
  function Untarred(s: ArchiveStream, blocked: set<string>): Result<Extraction> {
    var es := s.entries;
    var k := FirstStop(es, blocked);
    if k < |es| then
      if es[k].name in blocked || Obstructed(Made(es[..k]), Target(es[k].name)) then
        Ok(Extraction(EntryNames(NonDirectories(es[..k + 1])), Contents(NonDirectories(es[..k])), None))
      else Thrown(IOException)
    else if s.endsCleanly then
      Ok(Extraction(EntryNames(NonDirectories(es)), Contents(NonDirectories(es)), None))
    else Thrown(IOException)
  }

  /** `untarFile(source, destDir)`. Directory entries are only made, never
      listed. A file entry is listed before its target is opened; only a
      FileNotFoundException is caught, which returns the list so far,
      including that entry. An entry that cannot be read, or a stream that
      breaks, throws an IOException out of the method. `left` is what the
      call leaves in the destination however it ends: the files written,
      and the one cut short when an entry's bytes broke off after its file
      was opened; on a normal return it is the returned extraction. */
  method UntarFile(s: ArchiveStream, blocked: set<string>) returns (r: Result<Extraction>, left: Extraction)
    ensures r == Untarred(s, blocked)
    ensures r.Ok? ==> r.value == left
    ensures var k := FirstStop(s.entries, blocked);
      && left.written == Contents(NonDirectories(s.entries[..k]))
      && (left.cutShort.Some? <==> BrokeOff(s.entries, blocked, k))
      && (left.cutShort.Some? ==> r == Thrown(IOException) && left.cutShort.value == s.entries[k].name)
  {
    var es := s.entries;
    var listed, written, cut, k := ExtractFiles(es, blocked);
    left := Extraction(listed, written, cut);
    if k < |es| {
      var made := Made(es[..k]);
      if es[k].name in blocked || Obstructed(made, Target(es[k].name)) {
        return Ok(left), left;
      }
      return Thrown(IOException), left;
    }
    assert es[..k] == es;
    if !s.endsCleanly {
      return Thrown(IOException), left;
    }
    r := Ok(left);
  }

  /** One more entry read: a file entry joins the file entries met so far. */
  lemma NonDirectoriesStep(es: seq<StoredEntry>, i: nat)
    requires i < |es|
    ensures NonDirectories(es[..i + 1]) == NonDirectories(es[..i]) + (if es[i].dirFlag then [] else [es[i]])
  {
    assert es[..i + 1] == es[..i] + [es[i]];
    NonDirectoriesSnoc(es[..i], es[i]);
  }

  lemma {:induction false} NonDirectoriesSnoc(es: seq<StoredEntry>, e: StoredEntry)
    ensures NonDirectories(es + [e]) == NonDirectories(es) + (if e.dirFlag then [] else [e])
    decreases |es|
  {
    var last: seq<StoredEntry> := if e.dirFlag then [] else [e];
    if |es| == 0 {
      assert es + [e] == [e];
      assert NonDirectories([e]) == last + NonDirectories([]);
    } else {
      var head: seq<StoredEntry> := if es[0].dirFlag then [] else [es[0]];
      assert (es + [e])[0] == es[0];
      assert (es + [e])[1..] == es[1..] + [e];
      NonDirectoriesSnoc(es[1..], e);
      assert NonDirectories(es + [e]) == head + (NonDirectories(es[1..]) + last);
      assert NonDirectories(es) == head + NonDirectories(es[1..]);
    }
  }
}

=== FILE: hex.dfy ===
/** Lowercase hexadecimal rendering of digests, as done by
    `convertChecksumToHex` and `getMD5Checksum`: each byte `b` becomes
    `Integer.toString((b & 0xff) + 0x100, 16).substring(1)`. */
module Hex {
  import opened Base

  /** The sixteen lowercase digits '0'..'9', 'a'..'f'. */
  predicate IsLowerHexDigit(c: char) {
    '0' <= c <= '9' || 'a' <= c <= 'f'
  }

  function HexDigit(d: nat): (c: char)
    requires d < 16
    ensures IsLowerHexDigit(c)
  {
    if d < 10 then ('0' as int + d) as char else ('a' as int + d - 10) as char
  }

  /** Value of a lowercase hex digit; upper-case letters are not digits here. */
  function DigitValue(c: char): (v: Option<nat>)
    ensures v.Some? ==> v.value < 16 && HexDigit(v.value) == c
    ensures forall d :: 0 <= d < 16 && HexDigit(d) == c ==> v == Some(d)
  {
    if '0' <= c <= '9' then Some(c as int - '0' as int)
    else if 'a' <= c <= 'f' then Some(c as int - 'a' as int + 10)
    else None
  }

  /** `Integer.toString(n, 16)` for a non-negative `n`: most significant
      digit first, no leading zeros. */
  function IntegerToString16(n: nat): (s: string)
    ensures |s| >= 1
    ensures forall i :: 0 <= i < |s| ==> IsLowerHexDigit(s[i])
    decreases n
  {
    if n < 16 then [HexDigit(n)] else IntegerToString16(n / 16) + [HexDigit(n % 16)]
  }

  /** The two-character rendering of one byte: adding 0x100 forces a
      three-digit string "1hl", and dropping the leading "1" leaves the
      zero-padded high and low nibble. */
  function ByteToHex(b: byte): (s: string)
    ensures s == [HexDigit(b / 16), HexDigit(b % 16)]
  {
    PaddedByte(b);
    IntegerToString16(b as int + 0x100)[1..]
  }

  lemma PaddedByte(b: byte)
    ensures IntegerToString16(b as int + 0x100) == ['1', HexDigit(b / 16), HexDigit(b % 16)]
  {
    var m: nat := b as int + 0x100;
    var q: nat := m / 16;
    assert q == 16 + b / 16 && m % 16 == b % 16 by {
      assert m == 16 * (16 + b / 16) + b % 16;
    }
    assert q / 16 == 1 && q % 16 == b / 16;
    assert IntegerToString16(q) == IntegerToString16(1) + [HexDigit(b / 16)];
  }

  /** The hex text of a byte sequence: the renderings of its bytes, in order. */
  function Hex(bs: Bytes): (s: string)
    ensures |s| == 2 * |bs|
    decreases |bs|
  {
    if |bs| == 0 then "" else Hex(bs[..|bs| - 1]) + ByteToHex(bs[|bs| - 1])
  }

  /** Position by position: characters 2i and 2i+1 of the text are the high
      and low nibble of byte i. */
  lemma {:induction false} HexDigits(bs: Bytes)
    ensures forall i :: 0 <= i < |bs| ==>
      Hex(bs)[2 * i] == HexDigit(bs[i] / 16) && Hex(bs)[2 * i + 1] == HexDigit(bs[i] % 16)
    decreases |bs|
  {
    if |bs| > 0 {
      var init := bs[..|bs| - 1];
      HexDigits(init);
      assert Hex(bs) == Hex(init) + ByteToHex(bs[|bs| - 1]);
      forall i | 0 <= i < |bs|
        ensures Hex(bs)[2 * i] == HexDigit(bs[i] / 16) && Hex(bs)[2 * i + 1] == HexDigit(bs[i] % 16)
      {
        if i < |init| {
          assert bs[i] == init[i];
        }
      }
    }
  }

  /** Reads lowercase hex text back into bytes; None when the text has odd
      length or a character that is not a lowercase hex digit. */
  function ParseHex(s: string): (r: Option<Bytes>)
    decreases |s|
  {
    if |s| == 0 then Some([])
    else if |s| == 1 then None
    else
      var init := ParseHex(s[..|s| - 2]);
      var hi := DigitValue(s[|s| - 2]);
      var lo := DigitValue(s[|s| - 1]);
      if init.Some? && hi.Some? && lo.Some? then Some(init.value + [hi.value * 16 + lo.value])
      else None
  }

  /** Hex text always parses back to the bytes it renders. */
  lemma {:induction false} ParseHexOfHex(bs: Bytes)
    ensures ParseHex(Hex(bs)) == Some(bs)
    decreases |bs|
  {
    if |bs| > 0 {
      var init := bs[..|bs| - 1];
      var b := bs[|bs| - 1];
      var s := Hex(bs);
      ParseHexOfHex(init);
      HexLast(bs);
      NibblesParse(b);
      ParsePair(s, init, b);
      assert init + [b] == bs;
    }
  }

  /** Unfolding Hex once: the text of all but the last byte, then the last
      byte's two digits. */
  lemma HexLast(bs: Bytes)
    requires |bs| > 0
    ensures var s := Hex(bs);
      && s[..|s| - 2] == Hex(bs[..|bs| - 1])
      && s[|s| - 2] == HexDigit(bs[|bs| - 1] / 16)
      && s[|s| - 1] == HexDigit(bs[|bs| - 1] % 16)
  {
  }

  /** Parsing text whose prefix parses and whose last two characters are digits. */
  lemma ParsePair(s: string, init: Bytes, b: byte)
    requires |s| >= 2
    requires ParseHex(s[..|s| - 2]) == Some(init)
    requires DigitValue(s[|s| - 2]) == Some(b / 16) && DigitValue(s[|s| - 1]) == Some(b % 16)
    ensures ParseHex(s) == Some(init + [b])
  {
    assert (b / 16) * 16 + b % 16 == b;
  }

  lemma NibblesParse(b: byte)
    ensures DigitValue(HexDigit(b / 16)) == Some(b / 16)
    ensures DigitValue(HexDigit(b % 16)) == Some(b % 16)
    ensures (b / 16) * 16 + b % 16 == b
  {
  }

  /** Conversely, any text that parses is the rendering of what it parses to:
      the rendering is the only spelling accepted. */
  lemma {:induction false} HexOfParseHex(s: string, bs: Bytes)
    requires ParseHex(s) == Some(bs)
    ensures Hex(bs) == s
    decreases |s|
  {
    if |s| > 0 {
      ParseLast(s, bs);
      var n := |s|;
      var init := bs[..|bs| - 1];
      HexOfParseHex(s[..n - 2], init);
      HexLast(bs);
      EqualByLastTwo(Hex(bs), s);
    }
  }

  /** Undoing one step of ParseHex: text that parses ends in the digits of
      the last byte, after text that parses to the other bytes. */
  lemma ParseLast(s: string, bs: Bytes)
    requires |s| > 0 && ParseHex(s) == Some(bs)
    ensures |s| >= 2 && |bs| > 0 && |Hex(bs)| == |s|
    ensures ParseHex(s[..|s| - 2]) == Some(bs[..|bs| - 1])
    ensures s[|s| - 2] == HexDigit(bs[|bs| - 1] / 16)
    ensures s[|s| - 1] == HexDigit(bs[|bs| - 1] % 16)
  {
    var init := ParseHex(s[..|s| - 2]).value;
    var hi := DigitValue(s[|s| - 2]).value;
    var lo := DigitValue(s[|s| - 1]).value;
    var b := hi * 16 + lo;
    assert bs == init + [b];
    assert bs[..|bs| - 1] == init;
    assert b / 16 == hi && b % 16 == lo;
    ParseLength(s);
  }

  lemma {:induction false} ParseLength(s: string)
    requires ParseHex(s).Some?
    ensures 2 * |ParseHex(s).value| == |s|
    decreases |s|
  {
    if |s| > 0 {
      ParseLength(s[..|s| - 2]);
    }
  }

  /** Different byte sequences never share a rendering. */
  lemma HexInjective(a: Bytes, b: Bytes)
    requires Hex(a) == Hex(b)
    ensures a == b
  {
    ParseHexOfHex(a);
    ParseHexOfHex(b);
  }

  /** `convertChecksumToHex`: appends each byte's rendering to the result. */
  method ConvertChecksumToHex(checksum: Bytes) returns (result: string)
    ensures |result| == 2 * |checksum|
    ensures forall i :: 0 <= i < |result| ==> IsLowerHexDigit(result[i])
    ensures ParseHex(result) == Some(checksum)
  {
    result := "";
    var i := 0;
    while i < |checksum|
      invariant 0 <= i <= |checksum|
      invariant result == Hex(checksum[..i])
    {
      var piece := IntegerToString16(checksum[i] as int + 0x100)[1..];
      assert piece == ByteToHex(checksum[i]);
      assert checksum[..i + 1][..i] == checksum[..i];
      result := result + piece;
      i := i + 1;
    }
    assert checksum[..i] == checksum;
    ParseHexOfHex(checksum);
    HexAlphabet(checksum);
  }

  lemma HexAlphabet(bs: Bytes)
    ensures forall i :: 0 <= i < |Hex(bs)| ==> IsLowerHexDigit(Hex(bs)[i])
  {
    var s := Hex(bs);
    HexDigits(bs);
    forall i | 0 <= i < |s|
      ensures IsLowerHexDigit(s[i])
    {
      var j := i / 2;
      if i % 2 == 0 {
        assert s[2 * j] == HexDigit(bs[j] / 16);
      } else {
        assert s[2 * j + 1] == HexDigit(bs[j] % 16);
      }
    }
  }
}

=== FILE: pipeline.dfy ===
/** The delivery step wired to the archive model: when the zip call writes
    the image folder with `zipFiles` and the validation call answers as
    `validateZip` does on that archive, the step never reports a corrupted
    archive, and it succeeds exactly when the process can be saved. */
module Pipeline {
  import opened Base
  import opened FileTree
  import ZipWriter
  import opened Archive
  import opened Validator
  import opened RoundTrip
  import opened Delivery

  function NodeName(n: Node): string { n.name }

  function NodeNames(ns: seq<Node>): seq<string> {
    Map(NodeName, ns)
  }

  /** The answer `validateZip` gives for the archive of `ns` on a call. */
  predicate ValidatesAsModelled(call: ValidateCall, ns: seq<Node>, md5: DigestFn)
    requires FlatFolder(ns)
  {
    ZipWriter.ZipFiles(AsSources(ns), md5).Archived? &&
    ZipVerdict(Stored(ZipWriter.ZipFiles(AsSources(ns), md5).entries), call.createTempFile,
               Some(FolderOriginals(ns)), call.supposedFiles, md5)
  }

  lemma FreshArchiveIsDelivered(env: Environment, props: seq<Property>, ns: seq<Node>, md5: DigestFn)
    requires |ns| > 0 && FlatFolder(ns)
    requires env.listing == Some(NodeNames(ns)) && !env.zipThrows
    requires env.validateZip(CheckCall(env, NodeNames(ns))) == ValidatesAsModelled(CheckCall(env, NodeNames(ns)), ns, md5)
    ensures Execute(env, props).exit != Corrupted
    ensures Execute(env, props).success <==> env.saveSucceeds
    ensures Lookup(Execute(env, props).props, DownloadUrlTitle) == Some(DownloadUrl(env.downloadServer, env.hash, env.title))
  {
    FlatFolderValidates(ns, md5);
  }
}

=== FILE: plugin.dfy ===
/** `ImageDeliveryPlugin.execute`: zip the process's image folder under a
    name made of a hash and the process title, validate the archive against
    the folder, record the download address in the DOWNLOADURL property and
    save the process. The archive and persistence calls go to components
    outside this model and are given as an environment of outcomes. */
module Delivery {
  import opened Base

  /** A process property: a title and a value. */
  datatype Property = Property(title: string, value: string)

  const DownloadUrlTitle: string := "DOWNLOADURL"

  /** Index of the first property with the given title, if any. */
  function FirstTitled(props: seq<Property>, title: string): (r: Option<nat>)
    ensures r.Some? ==> r.value < |props| && props[r.value].title == title
    ensures r.Some? ==> forall j :: 0 <= j < r.value ==> props[j].title != title
    ensures r.None? ==> forall j :: 0 <= j < |props| ==> props[j].title != title
  {
    if |props| == 0 then None
    else if props[0].title == title then Some(0)
    else match FirstTitled(props[1..], title)
      case None => None
      case Some(i) => Some(i + 1)
  }

  /** The value of the first property with the given title. */
  function Lookup(props: seq<Property>, title: string): Option<string> {
    match FirstTitled(props, title)
    case None => None
    case Some(i) => Some(props[i].value)
  }

  /** The property list after recording `url`: the first DOWNLOADURL property
      takes the new value, or one is appended when there is none. */
  function WithDownloadUrl(props: seq<Property>, url: string): seq<Property> {
    match FirstTitled(props, DownloadUrlTitle)
    case Some(i) => props[i := props[i].(value := url)]
    case None => props + [Property(DownloadUrlTitle, url)]
  }

  /** The find-or-append loop of `execute`: the first property whose title
      is DOWNLOADURL is given the URL and the loop stops; when none matched,
      a new property is appended. */
  method SetDownloadUrl(props: seq<Property>, url: string) returns (r: seq<Property>)
    ensures r == WithDownloadUrl(props, url)
  {
    r := props;
    var matched := false;
    var i := 0;
    while i < |props|
      invariant 0 <= i <= |props|
      invariant forall j :: 0 <= j < i ==> props[j].title != DownloadUrlTitle
      invariant !matched && r == props
    {
      if props[i].title == DownloadUrlTitle {
        r := props[i := props[i].(value := url)];
        matched := true;
        break;
      }
      i := i + 1;
    }
    if !matched {
      r := props + [Property(DownloadUrlTitle, url)];
    }
  }

  /** An existing DOWNLOADURL property: only the first one changes, only in
      its value; the list keeps its length and every other property. */
  lemma UpdateFirstOnly(props: seq<Property>, url: string, i: nat)
    requires FirstTitled(props, DownloadUrlTitle) == Some(i)
    ensures var r := WithDownloadUrl(props, url);
      && |r| == |props|
      && r[i] == Property(DownloadUrlTitle, url)
      && forall j :: 0 <= j < |props| && j != i ==> r[j] == props[j]
  {
  }

  /** No DOWNLOADURL property: exactly one is appended, carrying the URL. */
  lemma AppendWhenMissing(props: seq<Property>, url: string)
    requires forall j :: 0 <= j < |props| ==> props[j].title != DownloadUrlTitle
    ensures var r := WithDownloadUrl(props, url);
      && |r| == |props| + 1
      && r[..|props|] == props
      && r[|props|] == Property(DownloadUrlTitle, url)
  {
  }

  /** Reading the property back gives the URL just recorded. */
  lemma {:induction false} LookupAfterSet(props: seq<Property>, url: string)
    ensures Lookup(WithDownloadUrl(props, url), DownloadUrlTitle) == Some(url)
  {
    var r := WithDownloadUrl(props, url);
    match FirstTitled(props, DownloadUrlTitle)
    case Some(i) =>
      assert r[i].title == DownloadUrlTitle;
      FirstTitledIs(r, DownloadUrlTitle, i);
    case None =>
      FirstTitledIs(r, DownloadUrlTitle, |props|);
  }

  /** The first index with the title is pinned down by where the title first
      occurs. */
  lemma FirstTitledIs(props: seq<Property>, title: string, i: nat)
    requires i < |props| && props[i].title == title
    requires forall j :: 0 <= j < i ==> props[j].title != title
    ensures FirstTitled(props, title) == Some(i)
  {
  }

  /** Recording a URL twice, or two URLs in a row, leaves one DOWNLOADURL
      property holding the last URL: running the step again does not pile up
      properties. */
  lemma SetTwice(props: seq<Property>, url1: string, url2: string)
    ensures WithDownloadUrl(WithDownloadUrl(props, url1), url2) == WithDownloadUrl(props, url2)
  {
    var r := WithDownloadUrl(props, url1);
    match FirstTitled(props, DownloadUrlTitle)
    case Some(i) =>
      FirstTitledIs(r, DownloadUrlTitle, i);
    case None =>
      FirstTitledIs(r, DownloadUrlTitle, |props|);
  }

  /** `File.getName()` of a path: the part after the last separator. */
  function FileName(path: string): (name: string)
    ensures Sep !in name
    ensures EndsWith(path, name)
    ensures Sep !in path ==> name == path
    ensures |name| < |path| ==> path[|path| - |name| - 1] == Sep
  {
    if |path| == 0 then ""
    else if path[|path| - 1] == Sep then []
    else FileName(path[..|path| - 1]) + [path[|path| - 1]]
  }

  /** `md5.getMD5() + "_" + process.getTitel() + ".zip"`. */
  function ArchiveName(hash: string, title: string): string {
    hash + "_" + title + ".zip"
  }

  /** The download address: the server followed by the archive file's name. */
  function DownloadUrl(server: string, hash: string, title: string): string {
    server + FileName(ArchiveName(hash, title))
  }

  /** A call `validateZip(archive, createTempFile, origFilesParent, supposedFiles)`. */
  datatype ValidateCall = ValidateCall(archive: string, createTempFile: bool,
                                       origFilesParent: string, supposedFiles: int)

  /** Everything `execute` learns from outside: the process title and its
      hash, the configured folders and server, the image folder's listing
      (None when `listFiles` returns null), and how the archive, validation
      and save calls turn out. */
  datatype Environment = Environment(
    title: string,
    hash: string,
    destinationFolder: string,
    imagesFolder: string,
    downloadServer: string,
    listing: Option<seq<string>>,
    zipThrows: bool,
    validateZip: ValidateCall -> bool,
    saveSucceeds: bool)

  /** Where `execute` stopped. */
  datatype Exit = NoImages | ZipFailed | Corrupted | NotSaved | Saved

  datatype Run = Run(exit: Exit, success: bool, props: seq<Property>)

  function ArchivePath(env: Environment): string {
    env.destinationFolder + [Sep] + ArchiveName(env.hash, env.title)
  }

  /** The validation `execute` asks for: with temporary files, against the
      image folder, expecting one entry per listed file. */
  function CheckCall(env: Environment, files: seq<string>): ValidateCall {
    ValidateCall(ArchivePath(env), true, env.imagesFolder, |files|)
  }

  /** `execute()`: the chain of early exits, then the property update and
      the save. The property list is changed in memory before the save, so a
      failed save still leaves the new URL in place. */
  function Execute(env: Environment, props: seq<Property>): (r: Run)
    ensures r.success <==> r.exit == Saved
    ensures r.exit == NoImages <==> env.listing.None? || |env.listing.value| == 0
    ensures r.exit in {NoImages, ZipFailed, Corrupted} ==> r.props == props
    ensures r.exit in {NotSaved, Saved} ==>
      && env.listing.Some? && !env.zipThrows
      && env.validateZip(CheckCall(env, env.listing.value))
      && Lookup(r.props, DownloadUrlTitle) == Some(DownloadUrl(env.downloadServer, env.hash, env.title))
    ensures r.exit in {NotSaved, Saved} ==>
      r.props == WithDownloadUrl(props, DownloadUrl(env.downloadServer, env.hash, env.title))
    ensures r.exit == Saved <==>
      && env.listing.Some? && |env.listing.value| > 0 && !env.zipThrows
      && env.validateZip(CheckCall(env, env.listing.value)) && env.saveSucceeds
  {
    if env.listing.None? || |env.listing.value| == 0 then Run(NoImages, false, props)
    else if env.zipThrows then Run(ZipFailed, false, props)
    else if !env.validateZip(CheckCall(env, env.listing.value)) then Run(Corrupted, false, props)
    else
      var url := env.downloadServer + FileName(ArchivePath(env));
      var updated := WithDownloadUrl(props, url);
      LookupAfterSet(props, url);
      ArchiveUrl(env);
      if env.saveSucceeds then Run(Saved, true, updated) else Run(NotSaved, false, updated)
  }

  /** The archive file's name does not depend on the destination folder. */
  lemma ArchiveUrl(env: Environment)
    ensures FileName(ArchivePath(env)) == FileName(ArchiveName(env.hash, env.title))
  {
    FileNameAfterSep(env.destinationFolder, ArchiveName(env.hash, env.title));
  }

  lemma {:induction false} FileNameAfterSep(dir: string, name: string)
    ensures FileName(dir + [Sep] + name) == FileName(name)
    decreases |name|
  {
    var p := dir + [Sep] + name;
    if |name| == 0 {
      assert p[|p| - 1] == Sep;
    } else {
      assert p[..|p| - 1] == dir + [Sep] + name[..|name| - 1];
      FileNameAfterSep(dir, name[..|name| - 1]);
    }
  }

  /** The URL is the server followed by the whole archive name exactly when
      neither the hash nor the title contains a separator. */
  lemma PlainTitleUrl(server: string, hash: string, title: string)
    ensures DownloadUrl(server, hash, title) == server + hash + "_" + title + ".zip"
        <==> Sep !in hash && Sep !in title
  {
    var n := ArchiveName(hash, title);
    if DownloadUrl(server, hash, title) == server + n {
      assert FileName(n) == (server + FileName(n))[|server|..] == (server + n)[|server|..] == n;
      forall i | 0 <= i < |hash|
        ensures hash[i] != Sep
      {
        assert hash[i] == n[i];
      }
      forall i | 0 <= i < |title|
        ensures title[i] != Sep
      {
        assert title[i] == n[|hash| + 1 + i];
      }
    }
  }

  /** A title holding a separator: the archive is written one folder deeper
      and the URL carries only the part after the last separator. */
  lemma TitleWithSeparatorUrl(server: string, hash: string, folder: string, last: string)
    requires Sep !in last
    ensures DownloadUrl(server, hash, folder + [Sep] + last) == server + last + ".zip"
  {
    var tail := last + ".zip";
    assert forall i :: 0 <= i < |tail| ==> tail[i] != Sep by {
      forall i | 0 <= i < |tail|
        ensures tail[i] != Sep
      {
        if i < |last| {
          assert tail[i] == last[i];
        }
      }
    }
    assert ArchiveName(hash, folder + [Sep] + last) == (hash + "_" + folder) + [Sep] + tail;
    FileNameAfterSep(hash + "_" + folder, tail);
  }
}

=== FILE: relpath.dfy ===
/** `getRelativePath(file, relativeParent)`: walking up from `file` to
    `relativeParent`, prepending each name, with "/" after every name that is
    not a regular file. A path is modelled by its components, either from
    the file system root or from the working directory; two absolute paths
    are the same exactly when their component names are (which is how their
    strings compare when no name is empty or contains the separator). */
module RelativePath {
  import opened Base

  /** One path component and whether it denotes an existing regular file. */
  datatype Component = Component(name: string, isFile: bool)

  function ComponentName(c: Component): string { c.name }

  function ComponentNames(cs: seq<Component>): seq<string> {
    Map(ComponentName, cs)
  }

  /** A component as it appears in the result: a name that is not a regular
      file is followed by the separator. */
  function Render(c: Component): (s: string)
    ensures StartsWith(s, c.name)
    ensures c.isFile ==> s == c.name
    ensures !c.isFile ==> |s| == |c.name| + 1 && s[|c.name|] == Sep
  {
    if c.isFile then c.name else c.name + [Sep]
  }

  function RenderAll(cs: seq<Component>): string {
    if |cs| == 0 then "" else Render(cs[0]) + RenderAll(cs[1..])
  }

  /** Where a path starts: an absolute path at the file system root, a
      relative one at the working directory, given by its names from the
      root (against which `getAbsolutePath()` resolves it). */
  datatype Anchor = Root | WorkingDir(cwd: seq<string>)

  function AnchorNames(a: Anchor): seq<string> {
    match a
    case Root => []
    case WorkingDir(cwd) => cwd
  }

  /** `getAbsolutePath()` of the file made of the components `cs`, as names
      from the root. */
  function AbsoluteNames(a: Anchor, cs: seq<Component>): seq<string> {
    AnchorNames(a) + ComponentNames(cs)
  }

  /** The walk reaches `file[..j]`: every prefix down to the root for an
      absolute path, down to the first name for a relative one (whose
      `getParentFile()` is null), and the empty relative path itself. */
  predicate Reached(file: seq<Component>, a: Anchor, j: int) {
    0 <= j <= |file| && (a.Root? || j > 0 || |file| == 0)
  }

  /** What the walk produces. Only the prefix of length
      `|parent| - |AnchorNames(a)|` can have the parent's absolute path; when
      the walk reaches that prefix and it matches, the result is the
      components below it (or "" for the file itself). Otherwise the walk
      runs off the top: past the root of an absolute path, which contributes
      a leading separator, or past the first name of a relative path, which
      does not. */
  function Relative(file: seq<Component>, parent: seq<string>, a: Anchor): string {
    var j := |parent| - |AnchorNames(a)|;
    if Reached(file, a, j) && AbsoluteNames(a, file[..j]) == parent then RenderAll(file[j..])
    else if a.Root? || |file| == 0 then [Sep] + RenderAll(file)
    else RenderAll(file)
  }

  /** The loop of `getRelativePath`. `file[..j]` is the current file. For an
      absolute path, `j == 0` is the root, whose name is empty, which is not
      a regular file, and whose parent is null; for a relative path the
      parent of the first name is null. */
  method GetRelativePath(file: seq<Component>, parent: seq<string>, a: Anchor) returns (path: string)
    ensures path == Relative(file, parent, a)
  {
    path := "";
    var j := |file|;
    while AbsoluteNames(a, file[..j]) != parent
      invariant 0 <= j <= |file|
      invariant a.WorkingDir? && |file| > 0 ==> j > 0
      invariant path == RenderAll(file[j..])
      invariant forall k :: j < k <= |file| ==> AbsoluteNames(a, file[..k]) != parent
      decreases j
    {
      if j == 0 {
        RanOffTop(file, parent, a, 0);
        path := [Sep] + path;   // "" + "/", then getParentFile() is null
        return;
      }
      assert file[j - 1..][1..] == file[j..];
      path := Render(file[j - 1]) + path;
      j := j - 1;
      if j == 0 && a.WorkingDir? {
        RanOffTop(file, parent, a, 1);
        return;                 // getParentFile() of a single relative name is null
      }
    }
    Matched(file, parent, a, j);
  }

  /** The walk stops at the first prefix it reaches whose absolute path is
      the parent's. */
  lemma Matched(file: seq<Component>, parent: seq<string>, a: Anchor, j: nat)
    requires j <= |file| && (a.WorkingDir? && |file| > 0 ==> j > 0)
    requires AbsoluteNames(a, file[..j]) == parent
    ensures Relative(file, parent, a) == RenderAll(file[j..])
  {
    assert |ComponentNames(file[..j])| == j;
  }

  /** No prefix from `lo` up matched, and the walk cannot go below `lo`. */
  lemma RanOffTop(file: seq<Component>, parent: seq<string>, a: Anchor, lo: nat)
    requires lo <= |file| && (lo == 0 || a.WorkingDir?) && (lo == 1 || a.Root? || |file| == 0)
    requires forall k :: lo <= k <= |file| ==> AbsoluteNames(a, file[..k]) != parent
    ensures Relative(file, parent, a) == if a.Root? || |file| == 0 then [Sep] + RenderAll(file) else RenderAll(file)
  {
    assert file[0..] == file;
  }

  /** For a regular file strictly below the parent, reached through
      directories, the result is the relative path of the file: the
      components below the parent joined by the separator, no separator at
      either end. */
  lemma {:induction false} RelativeOfFileBelow(cs: seq<Component>)
    requires |cs| > 0 && cs[|cs| - 1].isFile
    requires forall i :: 0 <= i < |cs| - 1 ==> !cs[i].isFile
    ensures RenderAll(cs) == Joined(ComponentNames(cs))
    decreases |cs|
  {
    if |cs| > 1 {
      RelativeOfFileBelow(cs[1..]);
      assert ComponentNames(cs[1..]) == ComponentNames(cs)[1..];
    }
  }

  /** Names joined by the separator. */
  function Joined(names: seq<string>): string {
    if |names| == 0 then ""
    else if |names| == 1 then names[0]
    else names[0] + [Sep] + Joined(names[1..])
  }

  lemma {:induction false} RenderAllAppend(a: seq<Component>, b: seq<Component>)
    ensures RenderAll(a + b) == RenderAll(a) + RenderAll(b)
    decreases |a|
  {
    if |a| == 0 {
      assert a + b == b;
    } else {
      assert (a + b)[1..] == a[1..] + b;
      RenderAllAppend(a[1..], b);
    }
  }

  /** When the file's own name is non-empty and free of the separator, the
      result ends with the separator exactly when the file is not a regular
      file. */
  lemma RenderAllEndsWithSep(cs: seq<Component>)
    requires |cs| > 0
    requires |cs[|cs| - 1].name| > 0 && Sep !in cs[|cs| - 1].name
    ensures EndsWith(RenderAll(cs), [Sep]) <==> !cs[|cs| - 1].isFile
  {
    var last := cs[|cs| - 1];
    RenderAllSnoc(cs);
    LastRender(last);
    EndsWithAppend(RenderAll(cs[..|cs| - 1]), Render(last));
  }

  lemma RenderAllSnoc(cs: seq<Component>)
    requires |cs| > 0
    ensures RenderAll(cs) == RenderAll(cs[..|cs| - 1]) + Render(cs[|cs| - 1])
  {
    var init, last := cs[..|cs| - 1], cs[|cs| - 1];
    RenderAllAppend(init, [last]);
    assert init + [last] == cs;
    RenderOne(last);
  }

  lemma RenderOne(c: Component)
    ensures RenderAll([c]) == Render(c)
  {
    assert [c][1..] == [];
    assert RenderAll([c]) == Render(c) + RenderAll([]);
  }

  lemma LastRender(c: Component)
    requires |c.name| > 0 && Sep !in c.name
    ensures |Render(c)| > 0 && (Render(c)[|Render(c)| - 1] == Sep <==> !c.isFile)
  {
    if c.isFile {
      assert c.name[|c.name| - 1] in c.name;
    }
  }

  lemma EndsWithAppend(a: string, b: string)
    requires |b| > 0
    ensures EndsWith(a + b, [Sep]) <==> b[|b| - 1] == Sep
  {
    assert (a + b)[|a + b| - 1] == b[|b| - 1];
    assert (a + b)[|a + b| - 1..] == [(a + b)[|a + b| - 1]];
  }
}

=== FILE: roundtrip.dfy ===
/** What the engine promises end to end: an archive the writers produce, read
    back without damage, is accepted by the matching validator, and
    extracting it gives back the entries that were written, whose bytes hash
    to the digest the writer returned. */
module RoundTrip {
  import opened Base
  import opened FileTree
  import ZipWriter
  import TarWriter
  import opened Archive
  import opened Validator
  import opened Extractor

  /** Every file entry that has an original of the same name carries bytes
      with the digest of that original, which can be read. */
  predicate OriginalsAgree(es: seq<Entry>, originals: Originals, md5: DigestFn) {
    forall i :: 0 <= i < |es| && !es[i].isDir && es[i].name in originals ==>
      originals[es[i].name].Original? && md5(es[i].data) == md5(originals[es[i].name].data)
  }

  /** Agreement matters only when the validator compares with originals. */
  predicate AgreeIfCompared(es: seq<Entry>, compare: bool, originals: Option<Originals>, md5: DigestFn) {
    compare && originals.Some? ==> OriginalsAgree(es, originals.value, md5)
  }

  /** A zip archive as `zipFiles` writes it passes `validateZip` when the
      originals agree and the expected count is the number of files and
      directories archived. With single-component names the converse holds
      too: a disagreeing original or a different count is always caught. */
  lemma ZipArchiveValidates(sources: seq<Option<Node>>, compare: bool, originals: Option<Originals>,
                            supposedFiles: int, md5: DigestFn)
    requires ZipWriter.ZipFiles(sources, md5).Archived?
    ensures var es := ZipWriter.ZipFiles(sources, md5).entries;
      AgreeIfCompared(es, compare, originals, md5) && supposedFiles == EntryCountAll(Present(sources))
      ==> ZipVerdict(Stored(es), compare, originals, supposedFiles, md5)
    ensures var es := ZipWriter.ZipFiles(sources, md5).entries;
      ZipVerdict(Stored(es), compare, originals, supposedFiles, md5) ==>
      supposedFiles == EntryCountAll(Present(sources))
    ensures var es := ZipWriter.ZipFiles(sources, md5).entries;
      (forall i :: 0 <= i < |Present(sources)| ==> WellNamed(Present(sources)[i])) ==>
      ZipVerdict(Stored(es), compare, originals, supposedFiles, md5) ==>
      AgreeIfCompared(es, compare, originals, md5) && supposedFiles == EntryCountAll(Present(sources))
  {
    var es := ZipWriter.ZipFiles(sources, md5).entries;
    var s := Stored(es);
    ZipWriter.ZipSourcesSkipNull(sources);
    assert es == ZipWriter.ZipChildren(Present(sources), "").entries;
    ZipWriter.ZipChildrenDirectoryNames(Present(sources), "");
    if AgreeIfCompared(es, compare, originals, md5) {
      forall i | 0 <= i < |s.entries|
        ensures IsZipDirectory(s.entries[i]) || FileEntryPasses(s.entries[i], compare, originals, md5)
      {
        assert es[i] in es;
      }
    }
    if forall i :: 0 <= i < |Present(sources)| ==> WellNamed(Present(sources)[i]) {
      ZipWriter.ZipChildrenDirectorySuffix(Present(sources), "");
      if ZipVerdict(s, compare, originals, supposedFiles, md5) && compare && originals.Some? {
        forall i | 0 <= i < |es| && !es[i].isDir && es[i].name in originals.value
          ensures originals.value[es[i].name].Original? && md5(es[i].data) == md5(originals.value[es[i].name].data)
        {
          assert es[i] in es;
          assert !IsZipDirectory(s.entries[i]);
        }
      }
    }
  }

  /** A tar archive as `tarFiles` writes it, even one cut short by a file that
      could not be opened, passes `validateTar` exactly when the originals
      agree for the entries the tar reader reports as files: a regular file
      stored under a path ending with the separator reads back as a
      directory and is skipped. */
  lemma TarArchiveValidates(sources: seq<(Option<Node>, string)>, compare: bool,
                            originals: Option<Originals>, md5: DigestFn)
    requires TarWriter.TarFiles(sources, md5).Archived?
    ensures var es := TarRead(TarWriter.TarFiles(sources, md5).entries);
      TarVerdict(Stored(es), compare, originals, md5) <==> AgreeIfCompared(es, compare, originals, md5)
  {
    var es := TarRead(TarWriter.TarFiles(sources, md5).entries);
    var s := Stored(es);
    if TarVerdict(s, compare, originals, md5) && compare && originals.Some? {
      forall i | 0 <= i < |es| && !es[i].isDir && es[i].name in originals.value
        ensures originals.value[es[i].name].Original? && md5(es[i].data) == md5(originals.value[es[i].name].data)
      {
        assert !s.entries[i].dirFlag;
      }
    }
  }

  /** A regular file mapped to "x/" is stored as a file entry, but the tar
      reader reports it as a directory, so `validateTar` skips it and accepts
      the archive although the original differs. */
  lemma TarFileUnderDirectoryName(md5: DigestFn)
    ensures var out := TarWriter.TarFiles([(Some(Regular("x", [1])), "x/")], md5);
      && out.Archived?
      && out.entries == [Entry("x/", false, [1])]
      && TarRead(out.entries) == [Entry("x/", true, [1])]
      && TarVerdict(Stored(TarRead(out.entries)), true, Some(map["x/" := Original([2])]), md5)
  {
    var sources := [(Some(Regular("x", [1])), "x/")];
    assert TarWriter.TarSources(sources) == Trace([Entry("x/", false, [1])], [1], None);
    assert EndsWith("x/", [Sep]);
  }

  /** The bytes written to the extracted files, concatenated in order. */
  function WrittenBytes(xs: seq<Extracted>): Bytes {
    if |xs| == 0 then [] else xs[0].data + WrittenBytes(xs[1..])
  }

  lemma {:induction false} WrittenBytesAppend(a: seq<Extracted>, b: seq<Extracted>)
    ensures WrittenBytes(a + b) == WrittenBytes(a) + WrittenBytes(b)
    decreases |a|
  {
    if |a| == 0 {
      assert a + b == b;
    } else {
      assert (a + b)[1..] == a[1..] + b;
      WrittenBytesAppend(a[1..], b);
    }
  }

  /** Peeling the first entry off an undamaged archive. */
  lemma StoredCons(es: seq<Entry>)
    requires |es| > 0
    ensures Stored(es).entries == [StoredEntry(es[0].name, es[0].isDir, Intact(es[0].data))] + Stored(es[1..]).entries
  {
  }

  lemma NonDirectoriesCons(head: StoredEntry, rest: seq<StoredEntry>)
    ensures NonDirectories([head] + rest) == (if head.dirFlag then [] else [head]) + NonDirectories(rest)
  {
    assert ([head] + rest)[1..] == rest;
  }

  lemma ContentsAppend(a: seq<StoredEntry>, b: seq<StoredEntry>)
    requires forall i :: 0 <= i < |a| ==> a[i].body.Intact?
    requires forall i :: 0 <= i < |b| ==> b[i].body.Intact?
    ensures Contents(a + b) == Contents(a) + Contents(b)
  {
  }

  /** Read back, an undamaged archive lists the file entries' names in order. */
  lemma {:induction false} StoredFileNames(es: seq<Entry>)
    ensures EntryNames(NonDirectories(Stored(es).entries)) == FileNames(es)
    decreases |es|
  {
    if |es| > 0 {
      var head := StoredEntry(es[0].name, es[0].isDir, Intact(es[0].data));
      var rest := Stored(es[1..]).entries;
      StoredCons(es);
      StoredFileNames(es[1..]);
      NonDirectoriesCons(head, rest);
      var first: seq<StoredEntry> := if head.dirFlag then [] else [head];
      var files := NonDirectories(rest);
      assert EntryNames(first + files) == EntryNames(first) + EntryNames(files);
    }
  }

  /** Read back, an undamaged archive's file entries hold exactly the bytes
      the writer fed to its digest. */
  lemma {:induction false} StoredFileBytes(es: seq<Entry>)
    ensures WrittenBytes(Contents(NonDirectories(Stored(es).entries))) == FileBytes(es)
    decreases |es|
  {
    if |es| > 0 {
      var head := StoredEntry(es[0].name, es[0].isDir, Intact(es[0].data));
      var rest := Stored(es[1..]).entries;
      StoredCons(es);
      StoredFileBytes(es[1..]);
      NonDirectoriesCons(head, rest);
      var first: seq<StoredEntry> := if head.dirFlag then [] else [head];
      var files := NonDirectories(rest);
      assert forall i :: 0 <= i < |files| ==> files[i] in rest;
      ContentsAppend(first, files);
      WrittenBytesAppend(Contents(first), Contents(files));
    }
  }

  /** Directories holding nothing, all entries of an undamaged archive
      together hold the same bytes as its file entries. */
  lemma {:induction false} StoredAllBytes(es: seq<Entry>)
    requires DirsCarryNoData(es)
    ensures WrittenBytes(Contents(Stored(es).entries)) == FileBytes(es)
    decreases |es|
  {
    if |es| > 0 {
      var head := StoredEntry(es[0].name, es[0].isDir, Intact(es[0].data));
      var rest := Stored(es[1..]).entries;
      StoredCons(es);
      assert DirsCarryNoData(es[1..]) by {
        assert forall i :: 0 <= i < |es| - 1 ==> es[1..][i] == es[i + 1];
      }
      StoredAllBytes(es[1..]);
      ContentsAppend([head], rest);
      WrittenBytesAppend(Contents([head]), Contents(rest));
      assert WrittenBytes(Contents([head])) == es[0].data;
      if es[0].isDir {
        assert es[0].data == [];
      }
    }
  }

  /** Entries that can all be extracted into a fresh directory: none is in
      another's way, and every regular file's name is a non-empty path that
      does not end in the separator. */
  predicate Extractable(es: seq<Entry>) {
    && Separate(es)
    && forall i :: 0 <= i < |es| && !es[i].isDir ==> |es[i].name| > 0 && !EndsWith(es[i].name, [Sep])
  }

  /** Read back without damage, such entries are clear for extraction. */
  lemma ExtractableIsClear(es: seq<Entry>)
    requires Extractable(es)
    ensures Clear(Stored(es).entries)
  {
    var s := Stored(es).entries;
    forall i | 0 <= i < |s| && !s[i].dirFlag
      ensures Target(s[i].name) == s[i].name != []
    {
      TargetOfPlainName(es[i].name);
    }
    forall i, j | 0 <= i < |s| && 0 <= j < |s| && i != j && !s[i].dirFlag
      ensures !Under(Target(s[j].name), Target(s[i].name))
    {
      if Under(Target(s[j].name), s[i].name) {
        UnderTarget(s[j].name, s[i].name);
      }
    }
  }

  /** The entries a tidy listing is written as can all be extracted. */
  lemma TidyIsExtractable(ns: seq<Node>)
    requires TidyAll(ns)
    ensures Extractable(ZipWriter.ZipChildren(ns, "").entries)
  {
    var es := ZipWriter.ZipChildren(ns, "").entries;
    ZipWriter.ZipChildrenSeparate(ns, "");
    ZipWriter.ZipChildrenDirectorySuffix(ns, "");
    forall i | 0 <= i < |es| && !es[i].isDir
      ensures |es[i].name| > 0
    {
      assert es[i] in es;
      var k :| 0 <= k < |ns| && Under(es[i].name, "" + ns[k].name);
    }
  }

  /** Zipping the files of a flat image folder and then unzipping the archive
      into a fresh directory lists every file and writes its bytes, which
      hash to the digest `zipFiles` returned. */
  method ZipThenUnzip(ns: seq<Node>, md5: DigestFn) returns (r: Extraction)
    requires |ns| > 0 && FlatFolder(ns)
    ensures ZipWriter.ZipFiles(AsSources(ns), md5).Archived?
    ensures |r.listed| == |r.written| == |ns|
    ensures forall i :: 0 <= i < |ns| ==>
      r.listed[i] == ns[i].name && r.written[i] == Extracted(ns[i].name, ns[i].content)
    ensures md5(WrittenBytes(r.written)) == ZipWriter.ZipFiles(AsSources(ns), md5).digest
  {
    FlatFolderIsTidy(ns);
    PresentOfSources(ns);
    ZipOfFlatFolder(ns);
    ZipWriter.ZipSourcesSkipNull(AsSources(ns));
    var out := ZipWriter.ZipFiles(AsSources(ns), md5);
    var s := Stored(out.entries);
    TidyIsExtractable(ns);
    ExtractableIsClear(out.entries);
    assert AsFiles(s.entries) == s.entries;
    NothingStops(s.entries, {});
    r := UnzipFile(s, {});
    assert s.entries[..|s.entries|] == s.entries;
    StoredAllBytes(out.entries);
  }

  /** An image folder is a tidy listing. */
  lemma FlatFolderIsTidy(ns: seq<Node>)
    requires FlatFolder(ns)
    ensures TidyAll(ns) && ReadableAll(ns)
  {
  }

  /** With directory entries made as directories, zipping a tidy listing of
      readable files and unzipping it into a fresh directory lists every
      archived regular file, and the bytes extracted hash to the digest
      `zipFiles` returned. */
  method ZipThenUnzipFixed(sources: seq<Option<Node>>, md5: DigestFn) returns (r: Extraction)
    requires |sources| > 0 && ReadableAll(Present(sources)) && TidyAll(Present(sources))
    ensures ZipWriter.ZipFiles(sources, md5).Archived?
    ensures r.listed == FileNames(ZipWriter.ZipFiles(sources, md5).entries)
    ensures md5(WrittenBytes(r.written)) == ZipWriter.ZipFiles(sources, md5).digest
  {
    var out := ZipWriter.ZipFiles(sources, md5);
    var s := Stored(out.entries);
    TidyIsExtractable(Present(sources));
    ZipWriter.ZipChildrenDirectorySuffix(Present(sources), "");
    assert ZipView(s.entries) == s.entries by {
      forall i | 0 <= i < |s.entries|
        ensures IsZipDirectory(s.entries[i]) == s.entries[i].dirFlag
      {
        assert out.entries[i] in out.entries;
      }
    }
    ExtractableIsClear(out.entries);
    NothingStops(s.entries, {});
    r := UnzipFileFixed(s, {});
    assert s.entries[..|s.entries|] == s.entries;
    StoredFileNames(out.entries);
    StoredFileBytes(out.entries);
  }

  /** Tarring and then untarring into a fresh directory, when the archive
      paths the caller chose put no entry in another's way, lists every
      archived regular file, and the bytes extracted hash to the digest
      `tarFiles` returned. */
  method TarThenUntar(sources: seq<(Option<Node>, string)>, md5: DigestFn) returns (r: Result<Extraction>)
    requires TarWriter.TarFiles(sources, md5).Archived?
    requires Extractable(TarWriter.TarFiles(sources, md5).entries)
    ensures r.Ok?
    ensures r.value.listed == FileNames(TarWriter.TarFiles(sources, md5).entries)
    ensures md5(WrittenBytes(r.value.written)) == TarWriter.TarFiles(sources, md5).digest
    ensures r.value.cutShort.None?
  {
    var out := TarWriter.TarFiles(sources, md5);
    TarReadPlain(out.entries);
    var s := Stored(TarRead(out.entries));
    ExtractableIsClear(out.entries);
    NothingStops(s.entries, {});
    var left;
    r, left := UntarFile(s, {});
    StoredFileNames(out.entries);
    StoredFileBytes(out.entries);
  }

  /** Archive paths that name a tidy listing, each a single component, are
      such paths. */
  lemma TidyPathsExtractable(sources: seq<(Option<Node>, string)>, md5: DigestFn)
    requires TidyAll(TarWriter.TarRoots(sources))
    ensures Extractable(TarWriter.TarSources(sources).entries)
    ensures TarWriter.TarFiles(sources, md5).Archived? ==> Extractable(TarWriter.TarFiles(sources, md5).entries)
  {
    TarWriter.TarSourcesAsZip(sources);
    TidyIsExtractable(TarWriter.TarRoots(sources));
  }

  /** The discrepancy in `unzipFile` on a concrete archive: the zip of a
      directory "d" holding one file "a". As written the directory entry
      "d/" becomes a regular file "d", so the loop stops at "d/a" (listed,
      never written); made as a directory, every entry gets through. */
  lemma UnzipDirectoryEntryBlocks(md5: DigestFn)
    ensures var out := ZipWriter.ZipFiles([Some(Directory("d", [Regular("a", [1])]))], md5);
      && out.Archived?
      && out.entries == [Entry("d/", true, []), Entry("d/a", false, [1])]
      && FirstStop(AsFiles(Stored(out.entries).entries), {}) == 1
      && FirstStop(ZipView(Stored(out.entries).entries), {}) == 2
  {
    ZipOfOneDirectory(md5);
    var es := [Entry("d/", true, []), Entry("d/a", false, [1])];
    AsFilesStopBelowDirectory(es);
    ZipViewGetsThrough(es);
  }

  lemma ZipOfOneDirectory(md5: DigestFn)
    ensures var out := ZipWriter.ZipFiles([Some(Directory("d", [Regular("a", [1])]))], md5);
      && out.Archived?
      && out.entries == [Entry("d/", true, []), Entry("d/a", false, [1])]
  {
    var n := Directory("d", [Regular("a", [1])]);
    var sources := [Some(n)];
    assert Present(sources) == [n] by {
      assert Present(sources) == [n] + Present([]);
    }
    assert TidyAll([n]) by {
      assert Tidy(n) by {
        assert WellNamed(Regular("a", [1]));
      }
    }
    OneDirectoryTrace(n);
  }

  /** The traversal behind ZipOfOneDirectory. */
  lemma OneDirectoryTrace(n: Node)
    requires n == Directory("d", [Regular("a", [1])])
    ensures ZipWriter.ZipChildren([n], "").entries == [Entry("d/", true, []), Entry("d/a", false, [1])]
  {
    var kids := [Regular("a", [1])];
    assert "" + "d" + [Sep] == "d/" && "d/" + "a" == "d/a";
    assert kids[1..] == [];
    assert ZipWriter.ZipFile(kids[0], "d/") == Trace([Entry("d/a", false, [1])], [1], None);
    assert ZipWriter.ZipChildren(kids, "d/") == Trace([Entry("d/a", false, [1])], [1], None);
    assert ZipWriter.ZipFile(n, "").entries == [Entry("d/", true, []), Entry("d/a", false, [1])];
    assert [n][1..] == [];
  }

  lemma AsFilesStopBelowDirectory(es: seq<Entry>)
    requires es == [Entry("d/", true, []), Entry("d/a", false, [1])]
    ensures FirstStop(AsFiles(Stored(es).entries), {}) == 1
  {
    var v := AsFiles(Stored(es).entries);
    assert Target("d/") == "d";
    assert Target("d/a") == "d/a";
    assert Made(v[..0]) == [];
    assert Passes(v[0], Made(v[..0]), {});
    assert v[..1] == [v[0]];
    assert Made(v[..1]) == [Make("d", false)];
    var m := Made(v[..1]);
    assert !m[0].asDir && Below("d/a", m[0].target);
    assert FileAbove(m, "d/a");
    assert !Passes(v[1], Made(v[..1]), {});
    StopsAt(v, {}, 1);
  }

  lemma ZipViewGetsThrough(es: seq<Entry>)
    requires es == [Entry("d/", true, []), Entry("d/a", false, [1])]
    ensures FirstStop(ZipView(Stored(es).entries), {}) == 2
  {
    var s := Stored(es).entries;
    assert ZipView(s) == s by {
      assert IsZipDirectory(s[0]) && !IsZipDirectory(s[1]);
    }
    assert "d/a"[2] == 'a';
    TargetOfPlainName("d/a");
    assert Target("d/") == "d";
    assert !Under("d", "d/a");
    assert Clear(s);
    NothingStops(s, {});
  }

  /** Archive paths that run through a regular file: with the map
      {x -> "x", y -> "x/y"} the tar archive holds a regular file "x" and a
      file "x/y" below it. Untarring writes "x", cannot open "x/y", catches
      the FileNotFoundException and still lists "x/y". */
  lemma TarPathThroughFile(x: Bytes, y: Bytes, md5: DigestFn)
    ensures var out := TarWriter.TarFiles([(Some(Regular("x", x)), "x"), (Some(Regular("y", y)), "x/y")], md5);
      && out.Archived?
      && out.entries == [Entry("x", false, x), Entry("x/y", false, y)]
      && Untarred(Stored(TarRead(out.entries)), {}) == Ok(Extraction(["x", "x/y"], [Extracted("x", x)], None))
  {
    var out := TarWriter.TarFiles([(Some(Regular("x", x)), "x"), (Some(Regular("y", y)), "x/y")], md5);
    TarThroughFileWritten(x, y, md5);
    UntarThroughFile(out.entries, x, y);
    assert !EndsWith("x", [Sep]) && !EndsWith("x/y", [Sep]);
    TarReadPlain(out.entries);
  }

  /** The archive written in TarPathThroughFile. */
  lemma TarThroughFileWritten(x: Bytes, y: Bytes, md5: DigestFn)
    ensures var out := TarWriter.TarFiles([(Some(Regular("x", x)), "x"), (Some(Regular("y", y)), "x/y")], md5);
      out.Archived? && out.entries == [Entry("x", false, x), Entry("x/y", false, y)]
  {
    var sources := [(Some(Regular("x", x)), "x"), (Some(Regular("y", y)), "x/y")];
    assert TarWriter.TarSources(sources[1..]).entries == [Entry("x/y", false, y)];
  }

  /** The stop at "x/y" in TarPathThroughFile. */
  lemma StopBelowFile(s: seq<StoredEntry>, x: Bytes, y: Bytes)
    requires s == [StoredEntry("x", false, Intact(x)), StoredEntry("x/y", false, Intact(y))]
    ensures FirstStop(s, {}) == 1
  {
    assert Target("x") == "x" && Target("x/y") == "x/y";
    assert Passes(s[0], Made(s[..0]), {});
    assert s[..1] == [s[0]];
    assert Made(s[..1]) == [Make("x", false)];
    var m := Made(s[..1]);
    assert !m[0].asDir && Below("x/y", m[0].target);
    assert FileAbove(m, "x/y");
    assert !Passes(s[1], Made(s[..1]), {});
    StopsAt(s, {}, 1);
  }

  lemma UntarThroughFile(es: seq<Entry>, x: Bytes, y: Bytes)
    requires es == [Entry("x", false, x), Entry("x/y", false, y)]
    ensures Untarred(Stored(es), {}) == Ok(Extraction(["x", "x/y"], [Extracted("x", x)], None))
  {
    var s := Stored(es).entries;
    assert s == [StoredEntry("x", false, Intact(x)), StoredEntry("x/y", false, Intact(y))];
    StopBelowFile(s, x, y);
    assert s[..2] == s;
    NonDirectoriesCons(s[0], [s[1]]);
    NonDirectoriesCons(s[1], []);
    assert [s[0]] + [s[1]] == s;
    assert NonDirectories(s) == s;
    NonDirectoriesCons(s[0], []);
    assert NonDirectories(s[..1]) == [s[0]];
    assert Contents([s[0]]) == [Extracted("x", x)];
    assert EntryNames(s) == ["x", "x/y"];
  }

  /** The sources of a `zipFiles` call with no null element. */
  function AsSources(ns: seq<Node>): (sources: seq<Option<Node>>)
    ensures |sources| == |ns| && forall i :: 0 <= i < |ns| ==> sources[i] == Some(ns[i])
  {
    seq(|ns|, i requires 0 <= i < |ns| => Some(ns[i]))
  }

  /** A `tarFiles` map sending every file to its own name. */
  function NamedSources(ns: seq<Node>): (sources: seq<(Option<Node>, string)>)
    ensures |sources| == |ns| && forall i :: 0 <= i < |ns| ==> sources[i] == (Some(ns[i]), ns[i].name)
  {
    seq(|ns|, i requires 0 <= i < |ns| => (Some(ns[i]), ns[i].name))
  }

  lemma {:induction false} NamedTarIsZip(ns: seq<Node>)
    ensures TarWriter.TarSources(NamedSources(ns)) == ZipWriter.ZipSources(AsSources(ns))
    decreases |ns|
  {
    if |ns| > 0 {
      assert NamedSources(ns)[1..] == NamedSources(ns[1..]);
      assert AsSources(ns)[1..] == AsSources(ns[1..]);
      NamedTarIsZip(ns[1..]);
      TarWriter.TarFileIsZipFile(ns[0], "");
      assert "" + ns[0].name == ns[0].name;
    }
  }

  /** Archived under their own names, the same files give a tar archive with
      the same entries as the zip archive, and the same digest whenever the
      zip is written at all. The tar is written unless the first file that
      cannot be read breaks off mid-read; then both abort with an
      IOException, and the zip's partial entries begin the tar's. When only
      the zip aborts, on a file that cannot be opened or on a repeated entry
      name, the entries it wrote so far begin the tar archive, and are all of
      it when the names do not repeat. */
  lemma TarMatchesZip(ns: seq<Node>, md5: DigestFn)
    requires |ns| > 0
    ensures var z := ZipWriter.ZipFiles(AsSources(ns), md5);
      var t := TarWriter.TarFiles(NamedSources(ns), md5);
      && (t.Archived? <==> FaultAll(ns) != Some(IOException))
      && (z.Archived? ==> t == z)
      && (t.Archived? && z.Aborted? ==> StartsWith(t.entries, z.partial))
      && (t.Archived? && z.Aborted? && DistinctNames(t.entries) ==> t.entries == z.partial)
      && (t.Aborted? ==> z.Aborted? && z.cause == t.cause && StartsWith(t.partial, z.partial))
  {
    NamedTarIsZip(ns);
    var tr := ZipWriter.ZipSources(AsSources(ns));
    ZipWriter.ZipSourcesFacts(AsSources(ns));
    PresentOfSources(ns);
    assert ZipWriter.ZipFiles(AsSources(ns), md5) == ZipWriter.Finish(tr, md5);
    assert TarWriter.TarFiles(NamedSources(ns), md5) ==
      if tr.failure == Some(IOException) then Aborted(tr.entries, IOException) else Archived(tr.entries, md5(tr.fed));
  }

  /** An image folder as the delivery step sees it: regular files only, each
      name appearing once. */
  predicate FlatFolder(ns: seq<Node>) {
    && (forall i :: 0 <= i < |ns| ==> ns[i].Regular? && WellNamed(ns[i]))
    && (forall i, j :: 0 <= i < j < |ns| ==> ns[i].name != ns[j].name)
  }

  /** The originals directory for such a folder: each name to its content. */
  function FolderOriginals(ns: seq<Node>): (m: Originals)
    requires FlatFolder(ns)
    ensures forall i :: 0 <= i < |ns| ==> ns[i].name in m && m[ns[i].name] == Original(ns[i].content)
  {
    map i | 0 <= i < |ns| :: ns[i].name := Original(ns[i].content)
  }

  lemma {:induction false} PresentOfSources(ns: seq<Node>)
    ensures Present(AsSources(ns)) == ns
    decreases |ns|
  {
    if |ns| > 0 {
      assert AsSources(ns)[1..] == AsSources(ns[1..]);
      PresentOfSources(ns[1..]);
    }
  }

  /** Zipping regular files at the archive root: one entry per file, named
      after it and holding its bytes, in order. */
  lemma {:induction false} ZipOfFlatFolder(ns: seq<Node>)
    requires forall i :: 0 <= i < |ns| ==> ns[i].Regular?
    ensures var t := ZipWriter.ZipChildren(ns, "");
      && t.failure.None?
      && |t.entries| == |ns| == EntryCountAll(ns)
      && forall i :: 0 <= i < |ns| ==> t.entries[i] == Entry(ns[i].name, false, ns[i].content)
    decreases |ns|
  {
    if |ns| > 0 {
      ZipOfFlatFolder(ns[1..]);
      assert "" + ns[0].name == ns[0].name;
      var rest := ZipWriter.ZipChildren(ns[1..], "");
      var t := ZipWriter.ZipChildren(ns, "");
      assert ZipWriter.ZipFile(ns[0], "") == Trace([Entry(ns[0].name, false, ns[0].content)], ns[0].content, None);
      assert t.entries == [Entry(ns[0].name, false, ns[0].content)] + rest.entries;
      forall i | 0 < i < |ns|
        ensures t.entries[i] == Entry(ns[i].name, false, ns[i].content)
      {
        assert t.entries[i] == rest.entries[i - 1];
        assert ns[1..][i - 1] == ns[i];
      }
    }
  }

  /** The delivery step's check of a fresh archive: the zip of a flat image
      folder passes `validateZip` with comparison against that folder and the
      folder's file count as the expected number of entries. */
  lemma FlatFolderValidates(ns: seq<Node>, md5: DigestFn)
    requires |ns| > 0 && FlatFolder(ns)
    ensures ZipWriter.ZipFiles(AsSources(ns), md5).Archived?
    ensures ZipVerdict(Stored(ZipWriter.ZipFiles(AsSources(ns), md5).entries), true,
                       Some(FolderOriginals(ns)), |ns|, md5)
  {
    PresentOfSources(ns);
    ZipOfFlatFolder(ns);
    ZipWriter.ZipSourcesSkipNull(AsSources(ns));
    var es := ZipWriter.ZipFiles(AsSources(ns), md5).entries;
    var originals := FolderOriginals(ns);
    assert OriginalsAgree(es, originals, md5) by {
      forall i | 0 <= i < |es| && !es[i].isDir && es[i].name in originals
        ensures originals[es[i].name].Original? && md5(es[i].data) == md5(originals[es[i].name].data)
      {
        assert es[i] == Entry(ns[i].name, false, ns[i].content);
      }
    }
    ZipArchiveValidates(AsSources(ns), true, Some(originals), |ns|, md5);
  }

  /** An archive of a flat folder in which one entry's bytes no longer hash
      like the original, or can no longer be read, fails both validators,
      whatever count is expected. */
  lemma FlatFolderDetectsDamage(ns: seq<Node>, i: nat, damage: Body, supposedFiles: int, md5: DigestFn)
    requires |ns| > 0 && FlatFolder(ns) && i < |ns|
    requires damage.Intact? ==> md5(damage.data) != md5(ns[i].content)
    ensures ZipWriter.ZipFiles(AsSources(ns), md5).Archived?
    ensures |ZipWriter.ZipFiles(AsSources(ns), md5).entries| == |ns|
    ensures var s := Stored(ZipWriter.ZipFiles(AsSources(ns), md5).entries);
      var damaged := ArchiveStream(s.entries[i := StoredEntry(ns[i].name, false, damage)], true);
      && !ZipVerdict(damaged, true, Some(FolderOriginals(ns)), supposedFiles, md5)
      && !TarVerdict(damaged, true, Some(FolderOriginals(ns)), md5)
  {
    PresentOfSources(ns);
    ZipOfFlatFolder(ns);
    ZipWriter.ZipSourcesSkipNull(AsSources(ns));
    var s := Stored(ZipWriter.ZipFiles(AsSources(ns), md5).entries);
    var e := StoredEntry(ns[i].name, false, damage);
    var damaged := ArchiveStream(s.entries[i := e], true);
    assert damaged.entries[i] == e;
    assert !IsZipDirectory(e) by {
      var name := ns[i].name;
      assert name[|name| - 1] in name;
    }
    assert !FileEntryPasses(e, true, Some(FolderOriginals(ns)), md5);
  }
}

=== FILE: tarwriter.dfy ===
/** `tarFiles`/`tarFile`: writing a tar archive. Each source comes with the
    archive path chosen by the caller: a regular file's entry is named
    exactly that path; a directory's entry is the path plus "/", and each
    child is written at `path + "/" + childName`. */
module TarWriter {
  import opened Base
  import opened FileTree
  import ZipWriter

  /** `tarFile(file, path, tos, checksum)` for a non-null file. */
  function TarFile(n: Node, path: string): Trace
    decreases n
  {
    match n
    case Regular(_, data) => Trace([Entry(path, false, data)], data, None)
    case Directory(_, kids) =>
      Then(Trace([Entry(path + [Sep], true, [])], [], None), TarChildren(kids, path))
    case Unreadable(_) => Trace([], [], Some(FileNotFoundException))
    case BrokenRead(_, got) => Trace([Entry(path, false, got)], got, Some(IOException))
    case Absent(_) => NoWork
  }

  /** The loop over `listFiles()` of the directory written at `path`. */
  function TarChildren(kids: seq<Node>, path: string): Trace
    decreases kids
  {
    if |kids| == 0 then NoWork
    else Then(TarFile(kids[0], path + [Sep] + kids[0].name), TarChildren(kids[1..], path))
  }

  /** Tar naming is zip naming once the caller's path is the file's own name
      under a prefix: both formats then write the same entries and feed the
      same bytes. */
  lemma {:induction false} TarFileIsZipFile(n: Node, prefix: string)
    ensures TarFile(n, prefix + n.name) == ZipWriter.ZipFile(n, prefix)
    decreases n
  {
    match n
    case Directory(name, kids) =>
      TarChildrenIsZipChildren(kids, prefix + name);
      assert prefix + name + [Sep] == prefix + n.name + [Sep];
    case _ =>
  }

  lemma {:induction false} TarChildrenIsZipChildren(kids: seq<Node>, path: string)
    ensures TarChildren(kids, path) == ZipWriter.ZipChildren(kids, path + [Sep])
    decreases kids
  {
    if |kids| > 0 {
      TarFileIsZipFile(kids[0], path + [Sep]);
      TarChildrenIsZipChildren(kids[1..], path);
    }
  }

  /** The same node under another root name. */
  function Renamed(n: Node, newName: string): (m: Node)
    ensures m.name == newName
    ensures Readable(m) == Readable(n) && EntryCount(m) == EntryCount(n)
    ensures TreeBytes(m) == TreeBytes(n) && FileCount(m) == FileCount(n)
    ensures Fault(m) == Fault(n)
  {
    match n
    case Regular(_, data) => Regular(newName, data)
    case Directory(_, kids) => Directory(newName, kids)
    case Unreadable(_) => Unreadable(newName)
    case BrokenRead(_, got) => BrokenRead(newName, got)
    case Absent(_) => Absent(newName)
  }

  /** Any caller-chosen path: a tar writes what a zip writes for the same
      node renamed to that path, at the archive root. */
  lemma TarFileAsZip(n: Node, path: string)
    ensures TarFile(n, path) == ZipWriter.ZipFile(Renamed(n, path), "")
  {
    var m := Renamed(n, path);
    TarFileIsZipFile(m, "");
    assert "" + path == path;
    assert TarFile(m, path) == TarFile(n, path) by {
      match n
      case Directory(_, kids) =>
      case _ =>
    }
  }

  /** The non-null sources, each renamed to its archive path. */
  function TarRoots(sources: seq<(Option<Node>, string)>): (ns: seq<Node>)
    ensures |ns| <= |sources|
  {
    if |sources| == 0 then []
    else
      (if sources[0].0.Some? then [Renamed(sources[0].0.value, sources[0].1)] else [])
      + TarRoots(sources[1..])
  }

  /** The non-null source files themselves, in order. */
  function TarNodes(sources: seq<(Option<Node>, string)>): seq<Node> {
    if |sources| == 0 then []
    else (if sources[0].0.Some? then [sources[0].0.value] else []) + TarNodes(sources[1..])
  }

  /** The loop of `tarFiles` over the map's entries, with a null key skipped
      as `tarFile` intends (see TarSourcesAsWritten). */
  function TarSources(sources: seq<(Option<Node>, string)>): Trace {
    if |sources| == 0 then NoWork
    else
      var first := match sources[0].0 case None => NoWork case Some(n) => TarFile(n, sources[0].1);
      Then(first, TarSources(sources[1..]))
  }

  /** The loop as written: the debug line dereferences the key before
      `tarFile` is called, so a null key throws a NullPointerException. */
  function TarSourcesAsWritten(sources: seq<(Option<Node>, string)>): Trace {
    if |sources| == 0 then NoWork
    else
      var first := match sources[0].0
        case None => Trace([], [], Some(NullPointerException))
        case Some(n) => TarFile(n, sources[0].1);
      Then(first, TarSourcesAsWritten(sources[1..]))
  }

  lemma {:induction false} TarSourcesAsZip(sources: seq<(Option<Node>, string)>)
    ensures TarSources(sources) == ZipWriter.ZipChildren(TarRoots(sources), "")
    decreases |sources|
  {
    if |sources| > 0 {
      TarSourcesAsZip(sources[1..]);
      var rest := TarRoots(sources[1..]);
      if sources[0].0.Some? {
        var m := Renamed(sources[0].0.value, sources[0].1);
        TarFileAsZip(sources[0].0.value, sources[0].1);
        assert TarRoots(sources) == [m] + rest;
        assert TarRoots(sources)[1..] == rest;
      } else {
        assert TarRoots(sources) == rest;
      }
    }
  }

  /** Renaming the roots changes none of the measures of the sources. */
  lemma {:induction false} TarRootsMeasures(sources: seq<(Option<Node>, string)>)
    ensures ReadableAll(TarRoots(sources)) == ReadableAll(TarNodes(sources))
    ensures EntryCountAll(TarRoots(sources)) == EntryCountAll(TarNodes(sources))
    ensures TreeBytesAll(TarRoots(sources)) == TreeBytesAll(TarNodes(sources))
    ensures FaultAll(TarRoots(sources)) == FaultAll(TarNodes(sources))
    decreases |sources|
  {
    if |sources| > 0 {
      TarRootsMeasures(sources[1..]);
      var roots := TarRoots(sources);
      var nodes := TarNodes(sources);
      if sources[0].0.Some? {
        assert roots[1..] == TarRoots(sources[1..]);
        assert nodes[1..] == TarNodes(sources[1..]);
        assert forall i :: 0 < i < |roots| ==> roots[i] == roots[1..][i - 1];
        assert forall i :: 0 < i < |nodes| ==> nodes[i] == nodes[1..][i - 1];
      } else {
        assert roots == TarRoots(sources[1..]);
        assert nodes == TarNodes(sources[1..]);
      }
    }
  }

  lemma TarSourcesFacts(sources: seq<(Option<Node>, string)>)
    ensures Consistent(TarSources(sources))
    ensures TarSources(sources).failure == FaultAll(TarNodes(sources))
    ensures TarSources(sources).failure.Some? <==> !ReadableAll(TarNodes(sources))
    ensures ReadableAll(TarNodes(sources)) ==>
      |TarSources(sources).entries| == EntryCountAll(TarNodes(sources)) &&
      TarSources(sources).fed == TreeBytesAll(TarNodes(sources))
  {
    TarSourcesAsZip(sources);
    TarRootsMeasures(sources);
    ZipWriter.ZipChildrenConsistent(TarRoots(sources), "");
    if ReadableAll(TarNodes(sources)) {
      ZipWriter.ZipChildrenMeasures(TarRoots(sources), "");
    }
  }

  /** `tarFiles(fileMap, tarFile)`, with a null key skipped. An empty map
      produces no archive. An exception thrown while writing a file ends the
      loop and is caught (FileNotFoundException at line 197, any other
      IOException at 199). A file that cannot be opened throws before its
      entry is put, so the stream closes cleanly and the digest of the bytes
      fed so far is returned. A read that breaks off leaves the entry open
      (`closeArchiveEntry` is skipped), and then `tos.close()` in the
      `finally` block throws an IOException ("unclosed entries") that
      escapes. A returned digest is always the one of the stored file-entry
      bytes; when every file reads, it is the digest of all regular-file
      contents in traversal order. */
  function TarFiles(sources: seq<(Option<Node>, string)>, md5: DigestFn): (r: WriteOutcome)
    ensures r.NoArchive? <==> |sources| == 0
    ensures r.Aborted? <==> |sources| > 0 && FaultAll(TarNodes(sources)) == Some(IOException)
    ensures r.Aborted? ==> r.cause == IOException
    ensures |sources| > 0 && ReadableAll(TarNodes(sources)) ==> r.Archived?
    ensures r.Archived? ==> r.digest == md5(FileBytes(r.entries)) && DirsCarryNoData(r.entries)
    ensures r.Archived? ==> r.entries == TarSources(sources).entries
    ensures r.Aborted? ==> r.partial == TarSources(sources).entries
    ensures r.Archived? && ReadableAll(TarNodes(sources)) ==>
      |r.entries| == EntryCountAll(TarNodes(sources)) && r.digest == md5(TreeBytesAll(TarNodes(sources)))
  {
    if |sources| == 0 then NoArchive
    else
      var t := TarSources(sources);
      TarSourcesFacts(sources);
      if t.failure == Some(IOException) then Aborted(t.entries, IOException)
      else Archived(t.entries, md5(t.fed))
  }

  /** What `tarFiles` writes, archived or not, is the zip walk of the files
      renamed to their mapped paths, up to where the loop stopped: the names,
      order and contents of the entries. */
  lemma TarFilesAsZip(sources: seq<(Option<Node>, string)>, md5: DigestFn)
    requires |sources| > 0
    ensures var r := TarFiles(sources, md5);
      (if r.Archived? then r.entries else r.partial) == ZipWriter.ZipChildren(TarRoots(sources), "").entries
  {
    TarSourcesAsZip(sources);
  }

  /** A null key that the loop as written reaches: every file before it opens. */
  predicate NullReached(sources: seq<(Option<Node>, string)>) {
    exists i :: 0 <= i < |sources| && sources[i].0.None? && ReadableAll(TarNodes(sources[..i]))
  }

  /** `tarFiles` as written: a NullPointerException escapes exactly when a
      null key is reached, that is, when every file before some null key
      reads; the stream then closes cleanly, since no entry is open. The
      only other exception that escapes is the IOException of a read that
      breaks off. Without null keys it is the intended `tarFiles`. */
  function TarFilesAsWritten(sources: seq<(Option<Node>, string)>, md5: DigestFn): (r: WriteOutcome)
    ensures r.Aborted? ==> r.cause == NullPointerException || r.cause == IOException
    ensures r.Aborted? && r.cause == NullPointerException <==> NullReached(sources)
    ensures (forall i :: 0 <= i < |sources| ==> sources[i].0.Some?) ==> r == TarFiles(sources, md5)
  {
    TarAsWrittenFacts(sources);
    TarSourcesFacts(sources);
    if |sources| == 0 then NoArchive
    else
      var t := TarSourcesAsWritten(sources);
      if t.failure == Some(NullPointerException) then Aborted(t.entries, NullPointerException)
      else if t.failure == Some(IOException) then Aborted(t.entries, IOException)
      else Archived(t.entries, md5(t.fed))
  }

  lemma TarAsWrittenFacts(sources: seq<(Option<Node>, string)>)
    ensures TarSourcesAsWritten(sources).failure == Some(NullPointerException) <==> NullReached(sources)
    ensures (forall i :: 0 <= i < |sources| ==> sources[i].0.Some?) ==> TarSourcesAsWritten(sources) == TarSources(sources)
  {
    if NullReached(sources) {
      var i :| 0 <= i < |sources| && sources[i].0.None? && ReadableAll(TarNodes(sources[..i]));
      TarNullFails(sources, i);
    }
    if TarSourcesAsWritten(sources).failure == Some(NullPointerException) {
      TarNullReached(sources);
    }
    if forall i :: 0 <= i < |sources| ==> sources[i].0.Some? {
      TarSourcesAsWrittenWithoutNull(sources);
    }
  }

  /** Unfolding TarNodes over a prefix that starts with a non-null key. */
  lemma TarNodesCons(sources: seq<(Option<Node>, string)>, i: nat)
    requires 0 < i <= |sources| && sources[0].0.Some?
    ensures TarNodes(sources[..i]) == [sources[0].0.value] + TarNodes(sources[1..][..i - 1])
  {
    assert sources[..i][1..] == sources[1..][..i - 1];
  }

  lemma ReadableCons(n: Node, ns: seq<Node>)
    ensures ReadableAll([n] + ns) <==> Readable(n) && ReadableAll(ns)
  {
    var all := [n] + ns;
    assert all[0] == n;
    assert forall j :: 0 <= j < |ns| ==> all[j + 1] == ns[j];
  }

  /** As written, the loop stops at a null key with a NullPointerException
      when every file before that key opens. */
  lemma {:induction false} TarNullFails(sources: seq<(Option<Node>, string)>, i: nat)
    requires i < |sources| && sources[i].0.None?
    requires ReadableAll(TarNodes(sources[..i]))
    ensures TarSourcesAsWritten(sources).failure == Some(NullPointerException)
    decreases i
  {
    if sources[0].0.Some? {
      var n := sources[0].0.value;
      TarNodesCons(sources, i);
      ReadableCons(n, TarNodes(sources[1..][..i - 1]));
      TarFileAsZip(n, sources[0].1);
      ZipWriter.ZipFileConsistent(Renamed(n, sources[0].1), "");
      TarNullFails(sources[1..], i - 1);
    }
  }

  /** Conversely, a NullPointerException means a null key was reached. */
  lemma {:induction false} TarNullReached(sources: seq<(Option<Node>, string)>)
    requires TarSourcesAsWritten(sources).failure == Some(NullPointerException)
    ensures NullReached(sources)
    decreases |sources|
  {
    if sources[0].0.None? {
      assert TarNodes(sources[..0]) == [];
    } else {
      var n := sources[0].0.value;
      TarFileAsZip(n, sources[0].1);
      ZipWriter.ZipFileConsistent(Renamed(n, sources[0].1), "");
      TarNullReached(sources[1..]);
      var i :| 0 <= i < |sources| - 1 && sources[1..][i].0.None? && ReadableAll(TarNodes(sources[1..][..i]));
      TarNodesCons(sources, i + 1);
      ReadableCons(n, TarNodes(sources[1..][..i]));
      assert sources[i + 1].0.None?;
    }
  }

  lemma {:induction false} TarSourcesAsWrittenWithoutNull(sources: seq<(Option<Node>, string)>)
    requires forall i :: 0 <= i < |sources| ==> sources[i].0.Some?
    ensures TarSourcesAsWritten(sources) == TarSources(sources)
    decreases |sources|
  {
    if |sources| > 0 {
      TarSourcesAsWrittenWithoutNull(sources[1..]);
    }
  }

  /** The discrepancy on a concrete input: a null key next to a readable file.
      As written a NullPointerException escapes with nothing archived;
      skipping the null archives the file under its path. */
  lemma TarNullKeyAborts(md5: DigestFn)
    ensures TarFilesAsWritten([(None, "x"), (Some(Regular("a.tif", [1])), "a.tif")], md5)
      == Aborted([], NullPointerException)
    ensures TarFiles([(None, "x"), (Some(Regular("a.tif", [1])), "a.tif")], md5)
      == Archived([Entry("a.tif", false, [1])], md5([1]))
  {
    var sources := [(None, "x"), (Some(Regular("a.tif", [1])), "a.tif")];
    assert sources[1..][1..] == [];
    var one: Bytes := [1];
    assert [] + one == one;
    assert [Entry("a.tif", false, [1])] + [] == [Entry("a.tif", false, [1])];
    assert TarSources(sources[1..]) == Trace([Entry("a.tif", false, [1])], [1], None);
  }

  /** The two ways a file can fail, on concrete inputs: a file that cannot be
      opened is skipped before its entry is put, and the digest of nothing is
      returned; a file whose read breaks off after one byte leaves its entry
      open, and closing the stream throws. */
  lemma TarReadFailures(md5: DigestFn)
    ensures TarFiles([(Some(Unreadable("u")), "u")], md5) == Archived([], md5([]))
    ensures TarFiles([(Some(BrokenRead("b", [1])), "b")], md5) == Aborted([Entry("b", false, [1])], IOException)
  {
    var u := [(Some(Unreadable("u")), "u")];
    var b := [(Some(BrokenRead("b", [1])), "b")];
    assert TarSources(u) == Trace([], [], Some(FileNotFoundException));
    assert TarSources(b) == Trace([Entry("b", false, [1])], [1], Some(IOException));
  }
}

=== FILE: tree.dfy ===
/** The file trees the archive writers walk, the entries they emit, and
    measures of a tree that do not depend on how an archive names things. */
module FileTree {
  import opened Base

  /** A `java.io.File` as the writers see it. A directory's children are in
      the order `listFiles()` returns them. */
  datatype Node =
    | Regular(name: string, content: Bytes)         // isFile()
    | Directory(name: string, children: seq<Node>)  // isDirectory()
    | Unreadable(name: string)                      // isFile(), but opening it throws
    | BrokenRead(name: string, delivered: Bytes)    // isFile(); reading throws after these bytes
    | Absent(name: string)                          // neither: does not exist

  /** One archive entry: its name, whether it is a directory entry, and the
      bytes stored for it (none for a directory). */
  datatype Entry = Entry(name: string, isDir: bool, data: Bytes)

  /** What a writer's traversal did: the entries it wrote, the bytes it fed
      to the running digest, and the exception that cut it short, if any. */
  datatype Trace = Trace(entries: seq<Entry>, fed: Bytes, failure: Option<Exception>)

  const NoWork: Trace := Trace([], [], None)

  /** Sequential composition: once a step has thrown, nothing after it runs. */
  function Then(first: Trace, rest: Trace): Trace {
    if first.failure.Some? then first
    else Trace(first.entries + rest.entries, first.fed + rest.fed, rest.failure)
  }

  /** Every file in the tree can be opened and read to the end. */
  predicate Readable(n: Node)
    decreases n
  {
    match n
    case Unreadable(_) => false
    case BrokenRead(_, _) => false
    case Directory(_, kids) => forall i :: 0 <= i < |kids| ==> Readable(kids[i])
    case _ => true
  }

  predicate ReadableAll(ns: seq<Node>) {
    forall i :: 0 <= i < |ns| ==> Readable(ns[i])
  }

  /** What the first file that cannot be read to the end throws, visiting the
      tree depth-first in `listFiles()` order: `new FileInputStream` throws a
      FileNotFoundException for a file that cannot be opened, and a read that
      breaks off throws an IOException. None when every file reads. */
  function Fault(n: Node): (f: Option<Exception>)
    ensures f.None? <==> Readable(n)
    ensures f.Some? ==> IsIOException(f.value)
    decreases n
  {
    match n
    case Unreadable(_) => Some(FileNotFoundException)
    case BrokenRead(_, _) => Some(IOException)
    case Directory(_, kids) => FaultAll(kids)
    case _ => None
  }

  function FaultAll(ns: seq<Node>): (f: Option<Exception>)
    ensures f.None? <==> ReadableAll(ns)
    ensures f.Some? ==> IsIOException(f.value)
    decreases ns
  {
    if |ns| == 0 then None
    else
      assert forall i :: 0 < i < |ns| ==> ns[i] == ns[1..][i - 1];
      if Fault(ns[0]).Some? then Fault(ns[0]) else FaultAll(ns[1..])
  }

  /** Every name is a single, non-empty path component. */
  predicate WellNamed(n: Node)
    decreases n
  {
    |n.name| > 0 && Sep !in n.name &&
    match n
    case Directory(_, kids) => forall i :: 0 <= i < |kids| ==> WellNamed(kids[i])
    case _ => true
  }

  /** Siblings have different names, at every level. */
  predicate SiblingsDiffer(n: Node)
    decreases n
  {
    match n
    case Directory(_, kids) =>
      NamesDiffer(kids) && forall i :: 0 <= i < |kids| ==> SiblingsDiffer(kids[i])
    case _ => true
  }

  predicate NamesDiffer(ns: seq<Node>) {
    forall i, j :: 0 <= i < j < |ns| ==> ns[i].name != ns[j].name
  }

  /** A tree as a file system holds it: single-component names, different
      among siblings. */
  predicate Tidy(n: Node) {
    WellNamed(n) && SiblingsDiffer(n)
  }

  /** A listing of tidy trees with different names. */
  predicate TidyAll(ns: seq<Node>) {
    NamesDiffer(ns) && forall i :: 0 <= i < |ns| ==> Tidy(ns[i])
  }

  /** Number of regular files and directories in the tree. */
  function EntryCount(n: Node): nat
    decreases n
  {
    match n
    case Regular(_, _) => 1
    case Directory(_, kids) => 1 + EntryCountAll(kids)
    case _ => 0
  }

  function EntryCountAll(ns: seq<Node>): nat
    decreases ns
  {
    if |ns| == 0 then 0 else EntryCount(ns[0]) + EntryCountAll(ns[1..])
  }

  /** Number of regular files in the tree. */
  function FileCount(n: Node): nat
    decreases n
  {
    match n
    case Regular(_, _) => 1
    case Directory(_, kids) => FileCountAll(kids)
    case _ => 0
  }

  function FileCountAll(ns: seq<Node>): nat
    decreases ns
  {
    if |ns| == 0 then 0 else FileCount(ns[0]) + FileCountAll(ns[1..])
  }

  /** The contents of the tree's regular files, concatenated in depth-first
      order (a directory before its children, children in listing order). */
  function TreeBytes(n: Node): Bytes
    decreases n
  {
    match n
    case Regular(_, data) => data
    case Directory(_, kids) => TreeBytesAll(kids)
    case _ => []
  }

  function TreeBytesAll(ns: seq<Node>): Bytes
    decreases ns
  {
    if |ns| == 0 then [] else TreeBytes(ns[0]) + TreeBytesAll(ns[1..])
  }

  /** The stored bytes of the non-directory entries, concatenated in order. */
  function FileBytes(es: seq<Entry>): Bytes {
    if |es| == 0 then []
    else (if es[0].isDir then [] else es[0].data) + FileBytes(es[1..])
  }

  /** Directory entries carry no content. */
  predicate DirsCarryNoData(es: seq<Entry>) {
    forall i :: 0 <= i < |es| && es[i].isDir ==> es[i].data == []
  }

  /** Names of the non-directory entries, in order. */
  function FileNames(es: seq<Entry>): seq<string> {
    if |es| == 0 then []
    else (if es[0].isDir then [] else [es[0].name]) + FileNames(es[1..])
  }

  lemma {:induction false} FileBytesAppend(a: seq<Entry>, b: seq<Entry>)
    ensures FileBytes(a + b) == FileBytes(a) + FileBytes(b)
    decreases |a|
  {
    if |a| > 0 {
      assert (a + b)[1..] == a[1..] + b;
      assert (a + b)[0] == a[0];
      FileBytesAppend(a[1..], b);
      var head := if a[0].isDir then [] else a[0].data;
      assert FileBytes(a + b) == head + FileBytes(a[1..] + b);
      assert FileBytes(a) == head + FileBytes(a[1..]);
    } else {
      assert a + b == b;
    }
  }

  lemma {:induction false} FileNamesAppend(a: seq<Entry>, b: seq<Entry>)
    ensures FileNames(a + b) == FileNames(a) + FileNames(b)
    decreases |a|
  {
    if |a| > 0 {
      assert (a + b)[1..] == a[1..] + b;
      assert (a + b)[0] == a[0];
      FileNamesAppend(a[1..], b);
      var head: seq<string> := if a[0].isDir then [] else [a[0].name];
      assert FileNames(a + b) == head + FileNames(a[1..] + b);
      assert FileNames(a) == head + FileNames(a[1..]);
    } else {
      assert a + b == b;
    }
  }

  /** The entries' names are pairwise different. */
  predicate DistinctNames(es: seq<Entry>) {
    forall i, j :: 0 <= i < j < |es| ==> es[i].name != es[j].name
  }

  /** Nothing is in another entry's way: no two entries share a name, and no
      entry lies at or below the path of a regular file's entry. */
  predicate Separate(es: seq<Entry>) {
    && DistinctNames(es)
    && forall i, j :: 0 <= i < |es| && 0 <= j < |es| && i != j && !es[i].isDir ==>
         !Under(es[j].name, es[i].name)
  }

  /** Two entries in different places: different names, and neither lies
      at or below the other when that other is a regular file. */
  predicate OutOfTheWay(x: Entry, y: Entry) {
    && x.name != y.name
    && (!x.isDir ==> !Under(y.name, x.name))
    && (!y.isDir ==> !Under(x.name, y.name))
  }

  lemma SeparateAppend(a: seq<Entry>, b: seq<Entry>)
    requires Separate(a) && Separate(b)
    requires forall x, y :: x in a && y in b ==> OutOfTheWay(x, y)
    ensures Separate(a + b)
  {
    var c := a + b;
    forall i, j | 0 <= i < |c| && 0 <= j < |c| && i != j
      ensures c[i].name != c[j].name && (!c[i].isDir ==> !Under(c[j].name, c[i].name))
    {
      if i < |a| && j < |a| {
        assert c[i] == a[i] && c[j] == a[j];
      } else if i >= |a| && j >= |a| {
        assert c[i] == b[i - |a|] && c[j] == b[j - |a|];
      } else if i < |a| {
        assert c[i] in a && c[j] in b;
      } else {
        assert c[j] in a && c[i] in b;
      }
    }
  }

  /** Entries below two differently named siblings are out of each other's way. */
  lemma SiblingEntries(x: Entry, y: Entry, dir: string, a: string, b: string)
    requires |a| > 0 && |b| > 0 && Sep !in a && Sep !in b && a != b
    requires Under(x.name, dir + a) && Under(y.name, dir + b)
    ensures OutOfTheWay(x, y)
  {
    if x.name == y.name {
      UnderOneName(x.name, dir, a, b);
    }
    if Under(y.name, x.name) {
      UnderTransitive(y.name, x.name, dir + a);
      UnderOneName(y.name, dir, a, b);
    }
    if Under(x.name, y.name) {
      UnderTransitive(x.name, y.name, dir + b);
      UnderOneName(x.name, dir, a, b);
    }
  }

  /** The invariants a writer keeps between entries and digest input: the
      digest has been fed exactly the file entries' bytes, in order, and
      directory entries hold nothing. */
  predicate Consistent(t: Trace) {
    t.fed == FileBytes(t.entries) && DirsCarryNoData(t.entries)
  }

  lemma ThenConsistent(a: Trace, b: Trace)
    requires Consistent(a) && Consistent(b)
    ensures Consistent(Then(a, b))
  {
    if a.failure.None? {
      FileBytesAppend(a.entries, b.entries);
      var es := a.entries + b.entries;
      forall i | 0 <= i < |es| && es[i].isDir
        ensures es[i].data == []
      {
        if i >= |a.entries| {
          assert es[i] == b.entries[i - |a.entries|];
        }
      }
    }
  }

  /** The non-null elements of a source list, in order. */
  function Present(sources: seq<Option<Node>>): (ns: seq<Node>)
    ensures |ns| <= |sources|
  {
    if |sources| == 0 then []
    else (if sources[0].Some? then [sources[0].value] else []) + Present(sources[1..])
  }

  /** The result of `zipFiles`/`tarFiles`: no archive at all (the method
      returns null), an archive with its digest, or an exception that escaped
      after some entries had been written. */
  datatype WriteOutcome =
    | NoArchive
    | Archived(entries: seq<Entry>, digest: Bytes)
    | Aborted(partial: seq<Entry>, cause: Exception)
}

=== FILE: validator.dfy ===
/** `validateZip` and `validateTar`: read every entry of an archive, fail on
    the first entry that cannot be read, and optionally compare each file
    entry's digest with the digest of the original file of the same name.
    An original that does not exist is skipped, not counted as a mismatch;
    one that exists but cannot be read makes the validation fail.
    Only the zip validator also checks the number of entries, and it counts
    every entry, directories included. */
module Validator {
  import opened Base
  import opened Archive

  /** An existing original: its bytes, or a read failure (opening or
      reading it throws, and `createChecksum` lets the IOException out). */
  datatype OriginalFile = Original(data: Bytes) | ReadFails

  /** Originals by entry name: `new File(origFilesParent, entry.getName())`
      for the names that denote an existing regular file. */
  type Originals = map<string, OriginalFile>

  /** The entry has an original and the comparison fails: the original
      cannot be read, or the two digests differ. */
  predicate Mismatch(e: StoredEntry, originals: Originals, md5: DigestFn)
    requires e.body.Intact?
  {
    e.name in originals &&
    (originals[e.name].ReadFails? || md5(e.body.data) != md5(originals[e.name].data))
  }

  /** A file entry survives the validator's checks: it can be read and, when
      comparison is on and an originals directory is given, it does not
      mismatch its original. */
  predicate FileEntryPasses(e: StoredEntry, compare: bool, originals: Option<Originals>, md5: DigestFn) {
    e.body.Intact? && !(compare && originals.Some? && Mismatch(e, originals.value, md5))
  }

  /** When `validateZip` answers true. */
  predicate ZipVerdict(s: ArchiveStream, compare: bool, originals: Option<Originals>,
                       supposedFiles: int, md5: DigestFn)
  {
    && (forall i :: 0 <= i < |s.entries| ==>
          IsZipDirectory(s.entries[i]) || FileEntryPasses(s.entries[i], compare, originals, md5))
    && s.endsCleanly
    && |s.entries| == supposedFiles
  }

  /** When `validateTar` answers true: the same checks, no count. */
  predicate TarVerdict(s: ArchiveStream, compare: bool, originals: Option<Originals>, md5: DigestFn) {
    && (forall i :: 0 <= i < |s.entries| ==>
          s.entries[i].dirFlag || FileEntryPasses(s.entries[i], compare, originals, md5))
    && s.endsCleanly
  }

  /** `validateZip(zipFile, createTempFile, origFilesParent, supposedFiles)`.
      `origFilesParent` None stands for null. */
  method ValidateZip(s: ArchiveStream, createTempFile: bool, origFilesParent: Option<Originals>,
                     supposedFiles: int, md5: DigestFn) returns (valid: bool)
    ensures valid <==> ZipVerdict(s, createTempFile, origFilesParent, supposedFiles, md5)
  {
    var counter := 0;
    var i := 0;
    while i < |s.entries|
      invariant 0 <= i <= |s.entries|
      invariant counter == i
      invariant forall j :: 0 <= j < i ==>
        IsZipDirectory(s.entries[j]) || FileEntryPasses(s.entries[j], createTempFile, origFilesParent, md5)
    {
      var entry := s.entries[i];
      counter := counter + 1;
      i := i + 1;
      if IsZipDirectory(entry) {
        continue;
      }
      if entry.body.Corrupt? {
        return false;   // IOException while reading the entry
      }
      if createTempFile && origFilesParent.Some? {
        if entry.name !in origFilesParent.value {
          continue;     // no original to compare with
        }
        var orig := origFilesParent.value[entry.name];
        if orig.ReadFails? {
          return false;   // IOException from createChecksum(origFile)
        }
        var tempFileChecksum := md5(entry.body.data);
        var origFileChecksum := md5(orig.data);
        if tempFileChecksum != origFileChecksum {
          return false;
        }
      }
    }
    if !s.endsCleanly {
      return false;     // IOException from getNextEntry
    }
    valid := counter == supposedFiles;
  }

  /** `validateTar(tarFile, createTempFile, origFilesParent)`. */
  method ValidateTar(s: ArchiveStream, createTempFile: bool, origFilesParent: Option<Originals>,
                     md5: DigestFn) returns (valid: bool)
    ensures valid <==> TarVerdict(s, createTempFile, origFilesParent, md5)
  {
    var i := 0;
    while i < |s.entries|
      invariant 0 <= i <= |s.entries|
      invariant forall j :: 0 <= j < i ==>
        s.entries[j].dirFlag || FileEntryPasses(s.entries[j], createTempFile, origFilesParent, md5)
    {
      var entry := s.entries[i];
      i := i + 1;
      if entry.dirFlag {
        continue;
      }
      if entry.body.Corrupt? {
        return false;
      }
      if createTempFile && origFilesParent.Some? {
        if entry.name !in origFilesParent.value {
          continue;
        }
        var orig := origFilesParent.value[entry.name];
        if orig.ReadFails? {
          return false;   // IOException from createChecksum(origFile)
        }
        var tempFileChecksum := md5(entry.body.data);
        var origFileChecksum := md5(orig.data);
        if tempFileChecksum != origFileChecksum {
          return false;
        }
      }
    }
    if !s.endsCleanly {
      return false;
    }
    valid := true;
  }

  /** The two validators differ only in the count: on any archive whose
      entries the zip validator treats as directories exactly when the tar
      validator does, the zip verdict is the tar verdict plus the count check. */
  lemma ZipIsTarPlusCount(s: ArchiveStream, compare: bool, originals: Option<Originals>,
                          supposedFiles: int, md5: DigestFn)
    requires forall i :: 0 <= i < |s.entries| ==> (IsZipDirectory(s.entries[i]) <==> s.entries[i].dirFlag)
    ensures ZipVerdict(s, compare, originals, supposedFiles, md5) <==>
      TarVerdict(s, compare, originals, md5) && |s.entries| == supposedFiles
  {
  }

  /** A cleanly read archive holding one file is accepted by the tar
      validator whatever was expected, but rejected by the zip validator when
      two entries were expected: the tar path never checks the count. */
  lemma TruncationOnlyZipNotices(md5: DigestFn)
    ensures var s := ArchiveStream([StoredEntry("a.tif", false, Intact([1]))], true);
      TarVerdict(s, false, None, md5) && !ZipVerdict(s, false, None, 2, md5)
  {
  }
}

=== FILE: zipwriter.dfy ===
/** `zipFiles`/`zipFile`: writing a zip archive. Every regular file becomes
    an entry named `path + name`; a directory becomes an entry named
    `path + name + "/"` followed by its children under that prefix. The bytes
    of every regular file are fed to the running digest as they are written. */
module ZipWriter {
  import opened Base
  import opened FileTree

  /** `zipFile(file, path, zos, checksum)` for a non-null file. */
  function ZipFile(n: Node, path: string): Trace
    decreases n
  {
    match n
    case Regular(name, data) => Trace([Entry(path + name, false, data)], data, None)
    case Directory(name, kids) =>
      var dirPath := path + name + [Sep];
      Then(Trace([Entry(dirPath, true, [])], [], None), ZipChildren(kids, dirPath))
    case Unreadable(_) => Trace([], [], Some(FileNotFoundException))
    case BrokenRead(name, got) => Trace([Entry(path + name, false, got)], got, Some(IOException))
    case Absent(_) => NoWork
  }

  /** The loop over `listFiles()` of a directory. */
  function ZipChildren(kids: seq<Node>, path: string): Trace
    decreases kids
  {
    if |kids| == 0 then NoWork else Then(ZipFile(kids[0], path), ZipChildren(kids[1..], path))
  }

  /** The writer's invariant: the digest is fed exactly the bytes of the
      file entries, in entry order, and directory entries hold nothing; the
      exception that escapes is the one the tree's first unreadable file
      throws, so there is one exactly when some file cannot be read. */
  lemma {:induction false} ZipFileConsistent(n: Node, path: string)
    ensures Consistent(ZipFile(n, path))
    ensures ZipFile(n, path).failure == Fault(n)
    ensures ZipFile(n, path).failure.Some? <==> !Readable(n)
    decreases n
  {
    match n
    case Directory(name, kids) =>
      var dirPath := path + name + [Sep];
      ZipChildrenConsistent(kids, dirPath);
      ThenConsistent(Trace([Entry(dirPath, true, [])], [], None), ZipChildren(kids, dirPath));
    case _ =>
  }

  lemma {:induction false} ZipChildrenConsistent(kids: seq<Node>, path: string)
    ensures Consistent(ZipChildren(kids, path))
    ensures ZipChildren(kids, path).failure == FaultAll(kids)
    ensures ZipChildren(kids, path).failure.Some? <==> !ReadableAll(kids)
    decreases kids
  {
    if |kids| > 0 {
      ZipFileConsistent(kids[0], path);
      ZipChildrenConsistent(kids[1..], path);
      ThenConsistent(ZipFile(kids[0], path), ZipChildren(kids[1..], path));
      assert ReadableAll(kids) <==> Readable(kids[0]) && ReadableAll(kids[1..]) by {
        assert forall i :: 0 < i < |kids| ==> kids[i] == kids[1..][i - 1];
      }
    }
  }

  /** A readable tree yields one entry per regular file and directory, and
      its file entries carry the tree's file contents in depth-first order. */
  lemma {:induction false} ZipFileMeasures(n: Node, path: string)
    requires Readable(n)
    ensures |ZipFile(n, path).entries| == EntryCount(n)
    ensures ZipFile(n, path).fed == TreeBytes(n)
    ensures |FileNames(ZipFile(n, path).entries)| == FileCount(n)
    decreases n
  {
    match n
    case Directory(name, kids) =>
      var dirPath := path + name + [Sep];
      ZipChildrenMeasures(kids, dirPath);
      ZipChildrenConsistent(kids, dirPath);
      var head := [Entry(dirPath, true, [])];
      FileNamesAppend(head, ZipChildren(kids, dirPath).entries);
    case _ =>
  }

  lemma {:induction false} ZipChildrenMeasures(kids: seq<Node>, path: string)
    requires ReadableAll(kids)
    ensures |ZipChildren(kids, path).entries| == EntryCountAll(kids)
    ensures ZipChildren(kids, path).fed == TreeBytesAll(kids)
    ensures |FileNames(ZipChildren(kids, path).entries)| == FileCountAll(kids)
    decreases kids
  {
    if |kids| > 0 {
      assert ReadableAll(kids[1..]) by {
        assert forall i :: 0 <= i < |kids| - 1 ==> kids[1..][i] == kids[i + 1];
      }
      ZipFileMeasures(kids[0], path);
      ZipChildrenMeasures(kids[1..], path);
      ZipFileConsistent(kids[0], path);
      FileNamesAppend(ZipFile(kids[0], path).entries, ZipChildren(kids[1..], path).entries);
    }
  }

  /** Every entry written for a file lies under the path it was given. */
  lemma {:induction false} ZipFileUnderPath(n: Node, path: string)
    ensures forall e :: e in ZipFile(n, path).entries ==> StartsWith(e.name, path)
    decreases n
  {
    match n
    case Directory(name, kids) =>
      var dirPath := path + name + [Sep];
      ZipChildrenUnderPath(kids, dirPath);
      assert StartsWith(dirPath, path) by {
        assert dirPath[..|path|] == path;
      }
      forall e | e in ZipChildren(kids, dirPath).entries
        ensures StartsWith(e.name, path)
      {
        assert e.name[..|dirPath|][..|path|] == e.name[..|path|];
      }
    case Regular(name, _) =>
      assert (path + name)[..|path|] == path;
    case BrokenRead(name, _) =>
      assert (path + name)[..|path|] == path;
    case _ =>
  }

  lemma {:induction false} ZipChildrenUnderPath(kids: seq<Node>, path: string)
    ensures forall e :: e in ZipChildren(kids, path).entries ==> StartsWith(e.name, path)
    decreases kids
  {
    if |kids| > 0 {
      ZipFileUnderPath(kids[0], path);
      ZipChildrenUnderPath(kids[1..], path);
    }
  }

  /** With single-component names, a zip entry is a directory entry exactly
      when its name ends with the separator, which is how a zip reader tells
      directories apart. */
  lemma {:induction false} ZipFileDirectorySuffix(n: Node, path: string)
    requires WellNamed(n)
    ensures forall e :: e in ZipFile(n, path).entries ==> (e.isDir <==> EndsWith(e.name, [Sep]))
    decreases n
  {
    match n
    case Directory(name, kids) =>
      var dirPath := path + name + [Sep];
      assert forall i :: 0 <= i < |kids| ==> WellNamed(kids[i]);
      ZipChildrenDirectorySuffix(kids, dirPath);
    case Regular(name, _) =>
      var full := path + name;
      assert full[|full| - 1] == name[|name| - 1];
      assert name[|name| - 1] in name;
    case BrokenRead(name, _) =>
      var full := path + name;
      assert full[|full| - 1] == name[|name| - 1];
      assert name[|name| - 1] in name;
    case _ =>
  }

  lemma {:induction false} ZipChildrenDirectorySuffix(kids: seq<Node>, path: string)
    requires forall i :: 0 <= i < |kids| ==> WellNamed(kids[i])
    ensures forall e :: e in ZipChildren(kids, path).entries ==> (e.isDir <==> EndsWith(e.name, [Sep]))
    decreases kids
  {
    if |kids| > 0 {
      ZipFileDirectorySuffix(kids[0], path);
      ZipChildrenDirectorySuffix(kids[1..], path);
    }
  }

  /** Whatever the names, a directory entry's name ends with the separator,
      so a zip reader never mistakes a directory entry for a file. */
  lemma {:induction false} ZipFileDirectoryNames(n: Node, path: string)
    ensures forall e :: e in ZipFile(n, path).entries && e.isDir ==> EndsWith(e.name, [Sep])
    decreases n
  {
    match n
    case Directory(name, kids) =>
      var dirPath := path + name + [Sep];
      assert EndsWith(dirPath, [Sep]);
      ZipChildrenDirectoryNames(kids, dirPath);
    case _ =>
  }

  lemma {:induction false} ZipChildrenDirectoryNames(kids: seq<Node>, path: string)
    ensures forall e :: e in ZipChildren(kids, path).entries && e.isDir ==> EndsWith(e.name, [Sep])
    decreases kids
  {
    if |kids| > 0 {
      ZipFileDirectoryNames(kids[0], path);
      ZipChildrenDirectoryNames(kids[1..], path);
    }
  }

  /** The entries of a tidy tree are out of each other's way, and all lie at
      or below the tree's own path. */
  lemma {:induction false} ZipFileSeparate(n: Node, path: string)
    requires Tidy(n)
    ensures Separate(ZipFile(n, path).entries)
    ensures forall e :: e in ZipFile(n, path).entries ==> Under(e.name, path + n.name)
    decreases n
  {
    match n
    case Directory(name, kids) =>
      var p := path + name;
      var dirPath := p + [Sep];
      assert TidyAll(kids);
      ZipChildrenSeparate(kids, dirPath);
      var d := Entry(dirPath, true, []);
      var rest := ZipChildren(kids, dirPath).entries;
      forall y | y in rest
        ensures OutOfTheWay(d, y) && Under(y.name, p)
      {
        var k :| 0 <= k < |kids| && Under(y.name, dirPath + kids[k].name);
        BelowDirectory(y.name, p, kids[k].name);
      }
      assert StartsWith(dirPath, p + [Sep]);
      SeparateAppend([d], rest);
      assert ZipFile(n, path).entries == [d] + rest;
    case _ =>
  }

  /** A path below `p + "/" + name` is longer than `p + "/"` and lies below `p`. */
  lemma BelowDirectory(q: string, p: string, name: string)
    requires |name| > 0 && Under(q, p + [Sep] + name)
    ensures |q| > |p| + 1 && StartsWith(q, p + [Sep])
  {
    assert q[..|p| + 1] == (p + [Sep] + name)[..|p| + 1];
  }

  lemma {:induction false} ZipChildrenSeparate(kids: seq<Node>, path: string)
    requires TidyAll(kids)
    ensures Separate(ZipChildren(kids, path).entries)
    ensures forall e :: e in ZipChildren(kids, path).entries ==>
      exists k :: 0 <= k < |kids| && Under(e.name, path + kids[k].name)
    decreases kids
  {
    if |kids| > 0 {
      var first := ZipFile(kids[0], path);
      var rest := ZipChildren(kids[1..], path);
      assert TidyAll(kids[1..]) by {
        assert forall i :: 0 <= i < |kids| - 1 ==> kids[1..][i] == kids[i + 1];
      }
      ZipFileSeparate(kids[0], path);
      ZipChildrenSeparate(kids[1..], path);
      if first.failure.None? {
        forall x, y | x in first.entries && y in rest.entries
          ensures OutOfTheWay(x, y)
        {
          var k :| 0 <= k < |kids| - 1 && Under(y.name, path + kids[1..][k].name);
          assert kids[1..][k] == kids[k + 1];
          SiblingEntries(x, y, path, kids[0].name, kids[k + 1].name);
        }
        SeparateAppend(first.entries, rest.entries);
        forall e | e in rest.entries
          ensures exists k :: 0 <= k < |kids| && Under(e.name, path + kids[k].name)
        {
          var k :| 0 <= k < |kids| - 1 && Under(e.name, path + kids[1..][k].name);
          assert kids[1..][k] == kids[k + 1];
        }
      }
    }
  }

  /** The loop of `zipFiles` over the source array, each source at path "",
      with a null element skipped as `zipFile` intends (see ZipSourcesAsWritten
      for what the loop actually does with one). */
  function ZipSources(sources: seq<Option<Node>>): Trace
  {
    if |sources| == 0 then NoWork
    else
      var first := match sources[0] case None => NoWork case Some(n) => ZipFile(n, "");
      Then(first, ZipSources(sources[1..]))
  }

  /** The loop as written: the debug line evaluates `file.getAbsolutePath()`
      before `zipFile` is called, so a null element throws a
      NullPointerException there instead of reaching `zipFile`'s null check. */
  function ZipSourcesAsWritten(sources: seq<Option<Node>>): Trace
  {
    if |sources| == 0 then NoWork
    else
      var first := match sources[0]
        case None => Trace([], [], Some(NullPointerException))
        case Some(n) => ZipFile(n, "");
      Then(first, ZipSourcesAsWritten(sources[1..]))
  }

  /** Skipping nulls is the same as walking the non-null sources like the
      children of a directory at path "". */
  lemma {:induction false} ZipSourcesSkipNull(sources: seq<Option<Node>>)
    ensures ZipSources(sources) == ZipChildren(Present(sources), "")
    decreases |sources|
  {
    if |sources| > 0 {
      ZipSourcesSkipNull(sources[1..]);
      var rest := Present(sources[1..]);
      if sources[0].Some? {
        var n := sources[0].value;
        assert Present(sources) == [n] + rest;
        assert Present(sources)[1..] == rest;
      } else {
        assert Present(sources) == rest;
      }
    }
  }

  /** Without null elements the loop as written and the intended loop agree. */
  lemma {:induction false} ZipSourcesAsWrittenWithoutNull(sources: seq<Option<Node>>)
    requires forall i :: 0 <= i < |sources| ==> sources[i].Some?
    ensures ZipSourcesAsWritten(sources) == ZipSources(sources)
    decreases |sources|
  {
    if |sources| > 0 {
      ZipSourcesAsWrittenWithoutNull(sources[1..]);
    }
  }

  lemma ZipSourcesFacts(sources: seq<Option<Node>>)
    ensures Consistent(ZipSources(sources))
    ensures ZipSources(sources).failure == FaultAll(Present(sources))
    ensures ZipSources(sources).failure.Some? <==> !ReadableAll(Present(sources))
    ensures ReadableAll(Present(sources)) ==>
      |ZipSources(sources).entries| == EntryCountAll(Present(sources)) &&
      ZipSources(sources).fed == TreeBytesAll(Present(sources))
  {
    ZipSourcesSkipNull(sources);
    ZipChildrenConsistent(Present(sources), "");
    if ReadableAll(Present(sources)) {
      ZipChildrenMeasures(Present(sources), "");
    }
  }

  /** A tidy listing never repeats an entry name. */
  lemma TidyNamesDiffer(ns: seq<Node>)
    ensures TidyAll(ns) ==> DistinctNames(ZipChildren(ns, "").entries)
  {
    if TidyAll(ns) {
      ZipChildrenSeparate(ns, "");
    }
  }

  /** Index of the first entry whose name an earlier entry already has, or
      the number of entries when all names differ. */
  function FirstRepeat(es: seq<Entry>): (k: nat)
    ensures k <= |es| && DistinctNames(es[..k])
    ensures k == |es| <==> DistinctNames(es)
    ensures k < |es| ==> exists j :: 0 <= j < k && es[j].name == es[k].name
  {
    assert es[..0] == [];
    RepeatFrom(es, 0)
  }

  function RepeatFrom(es: seq<Entry>, i: nat): (k: nat)
    requires i <= |es| && DistinctNames(es[..i])
    ensures i <= k <= |es| && DistinctNames(es[..k])
    ensures k < |es| ==> exists j :: 0 <= j < k && es[j].name == es[k].name
    decreases |es| - i
  {
    if i == |es| then i
    else if exists j :: 0 <= j < i && es[j].name == es[i].name then i
    else
      DistinctSnoc(es, i);
      RepeatFrom(es, i + 1)
  }

  lemma DistinctSnoc(es: seq<Entry>, i: nat)
    requires i < |es| && DistinctNames(es[..i])
    requires forall j :: 0 <= j < i ==> es[j].name != es[i].name
    ensures DistinctNames(es[..i + 1])
  {
    var p := es[..i + 1];
    forall j, l | 0 <= j < l < |p|
      ensures p[j].name != p[l].name
    {
      if l < i {
        assert es[..i][j] == p[j] && es[..i][l] == p[l];
      }
    }
  }

  /** Turning the loop's trace into the method's result. Each entry goes
      through `putNextEntry`, which throws a ZipException ("duplicate
      entry", an IOException) for a name already written; otherwise the
      result is the digest of the fed bytes, or the exception that escaped
      the traversal. */
  function Finish(t: Trace, md5: DigestFn): (r: WriteOutcome)
    ensures r.Archived? <==> t.failure.None? && DistinctNames(t.entries)
    ensures r.Archived? ==> r == Archived(t.entries, md5(t.fed))
    ensures r.Aborted? ==> r.cause == IOException || t.failure == Some(r.cause)
    ensures r.Aborted? && t.failure.None? ==> r.cause == IOException
    ensures r.Aborted? ==> StartsWith(t.entries, r.partial)
    ensures !DistinctNames(t.entries) ==> r.Aborted? && r.cause == IOException
    ensures r.Aborted? && DistinctNames(t.entries) ==> t.failure == Some(r.cause) && r.partial == t.entries
  {
    var k := FirstRepeat(t.entries);
    if k < |t.entries| then
      assert t.entries[..k] == t.entries[..|t.entries[..k]|];
      Aborted(t.entries[..k], IOException)
    else
      assert t.entries[..|t.entries|] == t.entries;
      match t.failure
      case Some(e) => Aborted(t.entries, e)
      case None => Archived(t.entries, md5(t.fed))
  }

  /** `zipFiles(sourceFiles, zipFile)`, with null elements skipped. An empty
      source list produces no archive. Otherwise the traversal's entries are
      archived when every file can be read to the end and no two entries
      share a name, which a tidy listing guarantees; the archive holds one
      entry per regular file and directory, and the returned digest is that
      of all regular-file contents in traversal order, which are exactly the
      bytes stored in the file entries. The only exceptions that escape are
      IOExceptions: a FileNotFoundException for a file that cannot be opened,
      or an IOException for a read that breaks off or a repeated entry name. */
  function ZipFiles(sources: seq<Option<Node>>, md5: DigestFn): (r: WriteOutcome)
    ensures r.NoArchive? <==> |sources| == 0
    ensures r.Archived? <==> |sources| > 0 && ReadableAll(Present(sources)) &&
                             DistinctNames(ZipChildren(Present(sources), "").entries)
    ensures |sources| > 0 && ReadableAll(Present(sources)) && TidyAll(Present(sources)) ==> r.Archived?
    ensures r.Aborted? ==> IsIOException(r.cause)
    ensures r.Aborted? ==> StartsWith(ZipChildren(Present(sources), "").entries, r.partial)
    ensures r.Aborted? && DistinctNames(ZipChildren(Present(sources), "").entries) ==>
      Some(r.cause) == FaultAll(Present(sources)) && r.partial == ZipChildren(Present(sources), "").entries
    ensures |sources| > 0 && !DistinctNames(ZipChildren(Present(sources), "").entries) ==>
      r.Aborted? && r.cause == IOException
    ensures r.Archived? ==>
      && r.entries == ZipChildren(Present(sources), "").entries
      && r.digest == md5(FileBytes(r.entries))
      && DirsCarryNoData(r.entries)
      && |r.entries| == EntryCountAll(Present(sources))
      && r.digest == md5(TreeBytesAll(Present(sources)))
  {
    if |sources| == 0 then NoArchive
    else
      ZipSourcesFacts(sources);
      ZipSourcesSkipNull(sources);
      TidyNamesDiffer(Present(sources));
      Finish(ZipSources(sources), md5)
  }

  /** `zipFiles` as written: a null element anywhere means no archive, and
      without null elements it is the intended `zipFiles`. */
  function ZipFilesAsWritten(sources: seq<Option<Node>>, md5: DigestFn): (r: WriteOutcome)
    ensures (exists i :: 0 <= i < |sources| && sources[i].None?) ==> r.Aborted?
    ensures (forall i :: 0 <= i < |sources| ==> sources[i].Some?) ==> r == ZipFiles(sources, md5)
  {
    if |sources| == 0 then NoArchive
    else
      AsWrittenFacts(sources);
      Finish(ZipSourcesAsWritten(sources), md5)
  }

  lemma AsWrittenFacts(sources: seq<Option<Node>>)
    ensures (exists i :: 0 <= i < |sources| && sources[i].None?) ==> ZipSourcesAsWritten(sources).failure.Some?
    ensures (forall i :: 0 <= i < |sources| ==> sources[i].Some?) ==> ZipSourcesAsWritten(sources) == ZipSources(sources)
  {
    if exists i :: 0 <= i < |sources| && sources[i].None? {
      var i :| 0 <= i < |sources| && sources[i].None?;
      ZipNullFails(sources, i);
    }
    if forall i :: 0 <= i < |sources| ==> sources[i].Some? {
      ZipSourcesAsWrittenWithoutNull(sources);
    }
  }

  /** As written, the loop cannot get past a null element. */
  lemma {:induction false} ZipNullFails(sources: seq<Option<Node>>, i: nat)
    requires i < |sources| && sources[i].None?
    ensures ZipSourcesAsWritten(sources).failure.Some?
    decreases i
  {
    if i > 0 {
      ZipNullFails(sources[1..], i - 1);
    }
  }

  /** The discrepancy on a concrete input: a null first element followed by
      one readable file. As written, no entry is written and a
      NullPointerException escapes; skipping the null archives the file. */
  lemma ZipNullElementAborts(md5: DigestFn)
    ensures ZipFilesAsWritten([None, Some(Regular("a.tif", [1]))], md5) == Aborted([], NullPointerException)
    ensures ZipFiles([None, Some(Regular("a.tif", [1]))], md5) == Archived([Entry("a.tif", false, [1])], md5([1]))
  {
    var sources := [None, Some(Regular("a.tif", [1]))];
    assert sources[1..][1..] == [];
    assert "" + "a.tif" == "a.tif";
    assert ZipFile(Regular("a.tif", [1]), "") == Trace([Entry("a.tif", false, [1])], [1], None);
    var one: Bytes := [1];
    assert [] + one == one;
    assert [Entry("a.tif", false, [1])] + [] == [Entry("a.tif", false, [1])];
    assert ZipSources(sources[1..]) == Trace([Entry("a.tif", false, [1])], [1], None);
  }
}
